=== FILE: README.md ===
# bang-bar, modelled in Dafny

bang-bar is a browser extension that lets the user type DuckDuckGo-style
"bangs" (`!g cats`, `!yt lofi`) into a search box or the omnibox, and sends
them straight to the target site. It does this without a round trip through
DuckDuckGo. Everything lives in `background.js`. This project models its pure
core:

- **`loadBangsData`** (`BangData`): compares the stored dataset version with
  the bundled one, rebuilds the trigger map from the dataset records or
  reuses the stored map, and returns `{}` on any failure. The storage read,
  the fetch of `bangs.json` and the success of the storage write are inputs.
  The write is an output.
- **`processBangQuery`** (`BangQuery`): splits the query at its first space,
  drops the first UTF-16 code unit of the first token to get the trigger, and
  substitutes the percent-encoded search terms for every `{{{s}}}` in that
  trigger's URL template. If the trigger has no usable template, it falls
  back to `https://duckduckgo.com/?q=` followed by the encoded query.
- **`encodeURIComponent`** (`UriComponent`): full UTF-8 with upper-case hex.
  A `decodeURIComponent` partner proves that nothing is lost.
- **`escapeHtml`** (`HtmlEscape`): the five chained replace-alls. They are
  proved equal to per-character escaping, safe for the omnibox XML parser,
  and invertible.
- **`onInputChanged`** (`Suggestions`): the omnibox suggestion filter. It
  returns nothing for blank input. Otherwise it keeps the keys, in the map's
  iteration order, that start with the first token as typed. It keeps at
  most five, each completed with the search terms and given an escaped
  description.
- **`onBeforeNavigate`** and **`onInputEntered`** (`Dispatch`): the gate that
  only acts on a `q` parameter starting with `!`, the choice between
  updating the navigating tab and creating a new one, and the omnibox
  selection.
- The JavaScript string operations these use (`Text`): `split`, `join`,
  `startsWith`, the blank test behind `!text.trim()`, and the global literal
  `replace`. `substring(1)` is `BangQuery.DropFirstCodeUnit`.

Chrome API calls become values. Storage contents and fetch results are
parameters, and navigations are returned as `Dispatch.Navigation` values.
JavaScript `undefined` is `Wrappers.Option.None`, and truthiness is spelled
out (`BangData.Truthy`, `BangData.Present`). `Object.entries(bangs)` order
is an explicit `order` parameter, because Dafny maps are unordered.

A few facts about the code that the model keeps exactly:

- Queries are split on single spaces only, with no trimming or collapsing of
  whitespace, and only the `q` search parameter of a navigation is read.
- `loadBangsData` returns `{}` on any failure; it does not fall back to a
  previously cached map.
- At most five suggestions are offered (`Suggestions.MaxSuggestions`).
- `substring(1)` drops one UTF-16 code unit. Dafny characters are Unicode
  scalar values, so when the first character of the token lies outside the
  Basic Multilingual Plane the trigger would be a lone surrogate; the model
  represents that trigger as `None`, which matches no key
  (`BangQuery.DropFirstCodeUnit`).

## Model

| member | source | states |
|---|---|---|
| Text.SplitOnPieces | background.js:131 | no piece of `split(" ")` contains the separator, and there is exactly one piece iff the separator does not occur |
| Text.JoinSplit | background.js:131-133 | joining the pieces of a split with the separator gives back the original string |
| Text.SplitFirst | background.js:131-133 | the first piece has no separator. With a separator present, first piece + separator + rejoined rest is the input. Without one, the rest is empty. |
| Text.ReplaceIsSplitJoin | background.js:140 | global literal replacement equals splitting at the pattern and joining with the replacement |
| Text.ReplaceWithoutMatch | background.js:140 | a template without the placeholder is returned unchanged |
| Text.ReplaceSkipsPrefix | background.js:140 | a prefix that holds no first character of the pattern passes through a global replace untouched, and the replace continues on the rest |
| Text.ReplaceCharIsSubst | background.js:93-97 | a one-character global replace equals the independent per-character substitution |
| UriComponent.Encode | background.js:140 | `encodeURIComponent` output holds only unreserved characters and `%XX` escapes, each `%` followed by two upper-case hex digits (so no `$`, `{`, `&` or space). It is empty iff the input is, and it leaves all-unreserved input unchanged. |
| UriComponent.DecodeEncode | background.js:144 | `decodeURIComponent(encodeURIComponent(s)) == s` for every string, including 2-, 3- and 4-byte UTF-8 characters |
| UriComponent.EncodeAppend | background.js:140 | encoding distributes over concatenation |
| HtmlEscape.EscapeHtml | background.js:90-98 | an empty argument gives `""`. The result has no raw `<`, `>`, `"` or `'`, every `&` starts one of the five references, and unescaping gives back the argument. |
| HtmlEscape.EscapeHtmlIsEscapeEach | background.js:92-97 | the five sequential replace-alls, `&` first, equal escaping each character independently (no double escaping) |
| HtmlEscape.UnescapeEscapeEach | background.js:92-97 | per-character escaping is inverted by decoding the five references |
| HtmlEscape.EscapeEachSafe | background.js:92-97 | per-character escaping leaves no raw special character, and every `&` begins a reference |
| BangData.FirstTruthy | background.js:33 | the `s`, `d`, `description`, `''` fallback chain: the result is empty iff every candidate is falsy. Otherwise it is the first truthy candidate. |
| BangData.Rebuild | background.js:27-35 | the rebuilt map has exactly the records' triggers as keys (a record without `t` is filed under `"undefined"`), each entry carrying its own key as trigger |
| BangData.RebuildLastWins | background.js:28-35 | for duplicate triggers, the entry comes from the last record with that trigger |
| BangData.LoadBangsData | background.js:8-52 | a failed read or fetch returns `{}` with no write. A matching truthy version returns the stored map unchanged (possibly `undefined`) with no write. A stale version writes the rebuilt map with the new version, and returns it if the write succeeds, else `{}`. A stale version whose dataset has no `bangs` array returns `{}` with no write, because the `forEach` throws. |
| BangData.SecondRunReuses | background.js:23-45 | after a successful rebuild, a second run with the same truthy-versioned dataset takes the reuse branch, writes nothing and returns the same map |
| BangData.FalsyVersionAlwaysRebuilds | background.js:23-40 | with a falsy dataset version, every run rebuilds and writes again |
| BangData.RebuildIsStored | background.js:27-46 | after a successful rebuild, storage holds the new version and the rebuilt map, and the returned map is what a later read sees |
| BangQuery.DropFirstCodeUnit | background.js:132 | `substring(1)` on a token: the empty token gives the empty trigger; a token whose first character is one UTF-16 code unit gives the token minus that character; otherwise there is no representable trigger |
| BangQuery.ParseQueryShape | background.js:131-133 | the token holds no space. Token, one space and terms make up the query when it has a space; otherwise the token is the query and the terms are empty. The trigger is the token without its first character when that character is one UTF-16 code unit, the empty string for an empty token, and `None` (matching no key) for an astral first character. |
| BangQuery.ParseAt | background.js:131-133 | any split of the query at a space-free prefix followed by a space is the split the handler makes |
| BangQuery.MarkerIgnored | background.js:132 | whatever the first non-space character, the terms are those of the rest of the query, and so is the trigger when that character is one UTF-16 code unit; an astral first character gives no trigger |
| BangQuery.AstralMarkerMisses | background.js:132-144 | a query whose first character lies outside the Basic Multilingual Plane always goes to the DuckDuckGo search for the whole query |
| BangQuery.Fallback | background.js:144 | the fallback starts with the DuckDuckGo prefix, and its `q` value decodes back to the whole query |
| BangQuery.Redirect | background.js:137-144 | hit: the template split at the placeholder and joined with the encoded terms, and the template itself when it has no placeholder. Miss: a non-empty fallback URL whose `q` decodes to the query. |
| BangQuery.ProcessBangQuery | background.js:130-145 | the same hit and miss outcomes, for the trigger and terms the query is split into |
| BangQuery.HitIgnoresMarker | background.js:132-140 | on a hit, two queries that differ only in their first (non-space, single-code-unit) character resolve to the same URL |
| BangQuery.SubstituteAtEnd | background.js:140 | a template ending in the placeholder, with no `{` before it, receives the encoded terms in its place |
| BangQuery.EncodeTwoWords | background.js:140 | two words of unreserved characters joined by one space encode with `%20` between them |
| BangQuery.HitFor | background.js:130-141 | for a space-free first token with a single-code-unit first character whose trigger (token minus that character) has a template, the result is the template with every placeholder replaced by the encoded terms |
| BangQuery.MissFor | background.js:130-144 | for a non-empty space-free first token whose trigger has no template (or is not representable, for an astral first character), the result is the DuckDuckGo prefix + the encoded whole query |
| BangQuery.HitTwoWords | background.js:130-141 | two plain words after a bang whose template ends in the placeholder, with no `{` before it, give the template prefix + `a%20b` |
| BangQuery.MissTwoWords | background.js:143-144 | a bang of unreserved characters without a template, followed by plain terms, gives `https://duckduckgo.com/?q=` + bang + `%20` + terms |
| BangQuery.EmptyTemplateRedirect | background.js:139-141 | a query that is one token with no space, whose trigger has a template consisting only of the placeholder, gives the empty string, which callers treat as "no redirect" |
| BangQuery.PlaceholderOnlyTemplate | background.js:131-140 | a token, one space and terms, whose trigger has a template consisting only of the placeholder, give the encoded terms alone, which are empty exactly when the terms are |
| Suggestions.Matching | background.js:109-110 | the kept keys are a subsequence of the iteration order (order kept), and are those that start with the token and no others |
| Suggestions.MatchingUnique | background.js:109-110 | when each key is listed once, the filter is the only order-keeping selection with exactly the matching keys |
| Suggestions.OnInputChanged | background.js:86-120 | no suggestions at all iff the input is blank. Otherwise exactly the first `min(matches, 5)` matching keys in iteration order, each with content `key + " " + terms` and the escaped `trigger - domain: description`. |
| Suggestions.SuggestionBounds | background.js:107-118 | at most five suggestions, each completing a stored key that starts with the typed token, and every matching key of the map offered when fewer than five match |
| Suggestions.NoKeyOfferedTwice | background.js:107-118 | no two suggestions have the same content, because each key appears once in the iteration order |
| Dispatch.TabDispatch | background.js:67-76 | with a tab id the navigating tab is updated to the URL; without one a new tab is created |
| Dispatch.OnBeforeNavigate | background.js:60-77 | navigates iff `q` is present, starts with `!` and resolves to a non-empty URL, and then to exactly that URL |
| Dispatch.UnknownBangStillNavigates | background.js:60-76 | a marked query with an unknown trigger always navigates, to the DuckDuckGo search for the whole query |
| Dispatch.EmptyTemplateDoesNotNavigate | background.js:60-77 | a marked query that is one token with no space, whose trigger's template is only the placeholder, resolves to the empty string, so nothing navigates |
| Dispatch.PlaceholderOnlyNavigatesToTerms | background.js:60-77 | with terms after such a token, the listener navigates to the encoded terms alone, and with empty terms it does not navigate |
| Dispatch.OnInputEnteredAsWritten | background.js:123-128 | the omnibox selection updates the current tab iff `processBangQuery` returns a non-empty URL |
| Dispatch.AsWrittenDropsFirstCharacter | background.js:123-133 | as written, entering `key terms` looks up the key without its first character (one UTF-16 code unit), and an astral first character makes it the DuckDuckGo search |
| Dispatch.SuggestionMissesAsWritten | background.js:113-144 | as written, entering the suggestion for any non-empty stored key whose tail (key minus its first code unit) has no template, or whose first character is astral, goes to the DuckDuckGo search for the suggestion text |
| Dispatch.SuggestionMisresolvedAsWritten | background.js:110-132 | with only a `yt` bang, the offered suggestion `yt cats` resolves to the fallback search instead of the `yt` template |
| Dispatch.OnInputEntered | background.js:123-128 | the corrected selection handler updates the current tab iff the first token, taken as the trigger, resolves to a non-empty URL |
| Dispatch.SelectedSuggestionResolves | background.js:113-133 | with the correction, entering `key terms` looks up `key` itself with the typed terms |
| Dispatch.EnteredSuggestionOpensTemplate | background.js:110-141 | with the correction, entering any suggestion for a key with a template opens that template with the encoded terms |

## Left out

- Chrome APIs (`storage`, `tabs`, `webNavigation`, `omnibox`, `runtime`) are not modelled as effects. Their inputs are parameters and their calls are returned values.
- `onInstalled` (background.js:1-6) only calls `loadBangsData`, and is not modelled separately.
- The fetch of `bangs.json` and JSON parsing are reduced to `BangData.Fetch`. A rejected fetch, a non-ok status and a parse error are all `FetchFailed`.
- `new URL(details.url)` and `searchParams` are not modelled. `OnBeforeNavigate` receives the decoded `q` value (or `None`) directly.
- A storage read that rejects inside `processBangQuery` or `onInputChanged` is not modelled. In `onBeforeNavigate` the `try`/`catch` (background.js:56, 80-82) logs the error; the `onInputEntered` and `onInputChanged` listeners reject their promises. In no case is there a navigation or a suggestion.
- The `try/catch` around `chrome.tabs.update` (background.js:68-73) is not modelled: whether `update` throws synchronously is host behaviour, so `TabDispatch` always uses `update` when there is a tab id.
- Concurrency between handlers and between `loadBangsData` runs is not modelled, and neither is `console` output.
- Text.ReplaceAll: the `$&`, `$1` and similar replacement patterns of `String.prototype.replace` are not modelled. Every replacement string used here is `$`-free, which `UriComponent.Encode` proves for the search terms.
- UriComponent.Encode: lone surrogates (which make the real function throw `URIError`) cannot occur, because a Dafny `char` is a Unicode scalar value.
- BangData.LoadBangsData: records whose `t`, `d`, `u`, `s` or `description` are non-strings (numbers, objects, `null`) are not modelled; every field is a string or absent. An absent `t` is modelled: the record is filed under `"undefined"` with an absent trigger, and it overwrites, or is overwritten by, a record whose `t` is the string `"undefined"` like any duplicate.
- BangQuery.ProcessBangQuery: `substring(1)` on a token whose first character lies outside the Basic Multilingual Plane leaves a lone surrogate followed by the rest; a Dafny string cannot hold a lone surrogate, so that trigger is modelled as `None`, which matches no key. Keys and queries containing lone surrogates are not representable.
- BangQuery.ParseQueryShape: states the trigger only in code-unit terms as above; for an astral first character it promises `None`, not the lone-surrogate string the code would look up.
- Suggestions.OnInputChanged: `order` is only required to list keys of the map. `Suggestions.SuggestionBounds` and `Suggestions.NoKeyOfferedTwice` additionally require it to list every key exactly once (`Suggestions.KeyOrder`), as `Object.entries` does.
- BangData.Rebuild: a record whose `t` is `__proto__` makes `bangsMap[bang.t] = …` set the object's prototype instead of adding a key; the model adds an ordinary key. Other names of `Object.prototype` (`toString`, `constructor`) are not keys of the rebuilt map in either, but the lookup `bangs[bangTrigger]` finds them in the code and misses in the model; both end in the fallback, because their `url` is undefined.
- Suggestions.OnInputChanged: the iteration order of `Object.entries` (integer-like keys first) is a parameter, not derived from the keys. Keys that clash with `Object.prototype` properties are not modelled.
- `escapeHtml` on a non-string argument (`String(str)`) is not modelled. It is only ever called on a string.

## Findings

| source | as written | input that shows it | evidently intended | confidence | as-written member | corrected member |
|---|---|---|---|---|---|---|
| background.js:113, 124, 132 | omnibox suggestions complete to `key terms` with no marker, but `onInputEntered` passes the text to `processBangQuery`, which drops the first character before the lookup | bangs holding only `yt`; the user accepts the suggestion `yt cats`; the lookup is for `t`, and the tab goes to `https://duckduckgo.com/?q=yt%20cats` | accepting a suggestion opens that key's template with the typed terms | medium, not executed | Dispatch.SuggestionMissesAsWritten (with Dispatch.SuggestionMisresolvedAsWritten) | Dispatch.EnteredSuggestionOpensTemplate |

=== FILE: bang_data.dfy ===
/** The pure part of `loadBangsData`: compare the stored dataset version
    with the bundled one, rebuild the trigger map from the dataset records
    or reuse the stored map, and fall back to an empty map on any failure.
    Storage reads and writes and the fetch of `bangs.json` are inputs and
    outputs here, not effects. */
module BangData {
  import opened Wrappers

  /** A JSON version value: a string or a number. */
  datatype Version = Str(text: string) | Num(number: real)

  /** JavaScript truthiness of a version: `""` and `0` are falsy. */
  predicate Truthy(v: Version) {
    match v
    case Str(t) => t != ""
    case Num(n) => n != 0.0
  }

  /** JavaScript truthiness of an optional string field. */
  predicate Present(o: Option<string>) {
    o.Some? && o.value != ""
  }

  /** An optional string converted to a string, as a property key or inside
      a template literal: an absent value reads `undefined`. */
  function Shown(o: Option<string>): (r: string)
    ensures o.Some? ==> r == o.value
    ensures o.None? ==> r == "undefined"
  {
    match o
    case Some(v) => v
    case None => "undefined"
  }

  /** One record of `bangs.json`: trigger `t`, domain `d`, URL template `u`,
      and the description candidates `s` and `description`; each may be
      absent. */
  datatype Record = Record(
    t: Option<string>,
    d: Option<string>,
    u: Option<string>,
    s: Option<string>,
    description: Option<string>)

  /** One entry of the trigger map. */
  datatype Entry = Entry(
    trigger: Option<string>,
    domain: Option<string>,
    url: Option<string>,
    description: string)

  type BangMap = map<string, Entry>

  /** The parsed `bangs.json`; `bangs` is absent when the document has no
      such array. */
  datatype Dataset = Dataset(version: Version, bangs: Option<seq<Record>>)

  /** The outcome of fetching and parsing `bangs.json`: a rejected fetch, a
      non-ok status and a parse error are all `FetchFailed`. */
  datatype Fetch = Fetched(data: Dataset) | FetchFailed

  /** The keys `bangsVersion` and `bangs` of the extension's local storage;
      `None` for a key that is not set. */
  datatype Stored = Stored(version: Option<Version>, bangs: Option<BangMap>)

  /** The outcome of `chrome.storage.local.get(['bangsVersion', 'bangs'])`. */
  datatype StoreRead = ReadOk(stored: Stored) | ReadFailed

  /** The single `chrome.storage.local.set` call: map and version together. */
  datatype Write = Write(version: Version, bangs: BangMap)

  /** What one run of `loadBangsData` returns (`None` is `undefined`) and
      the storage write it issues, if any. */
  datatype Load = Load(returned: Option<BangMap>, write: Option<Write>)

  /** `a || b || ... || ''` over optional strings: the first truthy
      candidate, or the empty string when there is none. */
  function FirstTruthy(candidates: seq<Option<string>>): (r: string)
    ensures r == "" <==> forall k :: 0 <= k < |candidates| ==> !Present(candidates[k])
    ensures r != "" ==> exists k :: 0 <= k < |candidates| && candidates[k] == Some(r)
                         && forall j :: 0 <= j < k ==> !Present(candidates[j])
    decreases |candidates|
  {
    if candidates == [] then ""
    else if Present(candidates[0]) then candidates[0].value
    else
      var r := FirstTruthy(candidates[1..]);
      assert forall k :: 1 <= k < |candidates| ==> candidates[k] == candidates[1..][k - 1];
      if r != "" then
        var k :| 0 <= k < |candidates[1..]| && candidates[1..][k] == Some(r)
                 && forall j :: 0 <= j < k ==> !Present(candidates[1..][j]);
        assert candidates[k + 1] == Some(r);
        r
      else
        r
  }

  /** The description: the first truthy one of `s`, `d` and `description`,
      or the empty string. */
  function Describe(rec: Record): string {
    FirstTruthy([rec.s, rec.d, rec.description])
  }

  function ToEntry(rec: Record): Entry {
    Entry(rec.t, rec.d, rec.u, Describe(rec))
  }

  /** The key a record is filed under: its trigger, or `undefined` when it
      has none. */
  function KeyOf(rec: Record): string {
    Shown(rec.t)
  }

  /** Record `i` is the last one with its key. */
  predicate LastWithTrigger(records: seq<Record>, i: int)
    requires 0 <= i < |records|
  {
    forall j :: i < j < |records| ==> KeyOf(records[j]) != KeyOf(records[i])
  }

  /** The map `forEach` builds from the records: one key per distinct
      trigger (records without one share the key `undefined`), each entry
      filed under its own trigger, and the last record with a given key
      wins. */
  function Rebuild(records: seq<Record>): (m: BangMap)
    ensures m.Keys == Triggers(records)
    ensures forall k :: k in m ==> Shown(m[k].trigger) == k
    decreases |records|
  {
    if records == [] then map[]
    else
      var n := |records| - 1;
      var front := records[..n];
      var last := records[n];
      TriggersSnoc(front, last);
      assert records == front + [last];
      Rebuild(front)[KeyOf(last) := ToEntry(last)]
  }

  /** In the rebuilt map, the last record with a given trigger wins. */
  lemma {:induction false} RebuildLastWins(records: seq<Record>, i: nat)
    requires i < |records| && LastWithTrigger(records, i)
    ensures KeyOf(records[i]) in Rebuild(records)
    ensures Rebuild(records)[KeyOf(records[i])] == ToEntry(records[i])
    decreases |records|
  {
    var n := |records| - 1;
    RebuildSnoc(records);
    if i < n {
      var front := records[..n];
      assert front[i] == records[i];
      assert LastWithTrigger(front, i) by {
        forall j | i < j < |front| ensures KeyOf(front[j]) != KeyOf(front[i]) {
          assert front[j] == records[j];
        }
      }
      RebuildLastWins(front, i);
      assert KeyOf(records[n]) != KeyOf(records[i]);
    }
  }

  /** The last record is filed on top of the map of the ones before it. */
  lemma RebuildSnoc(records: seq<Record>)
    requires |records| > 0
    ensures var n := |records| - 1;
            Rebuild(records) == Rebuild(records[..n])[KeyOf(records[n]) := ToEntry(records[n])]
  {
  }

  /** The set of keys the records are filed under. */
  function Triggers(records: seq<Record>): set<string> {
    set i | 0 <= i < |records| :: KeyOf(records[i])
  }

  lemma TriggersSnoc(front: seq<Record>, last: Record)
    ensures Triggers(front + [last]) == Triggers(front) + {KeyOf(last)}
  {
    var all := front + [last];
    forall k | k in Triggers(all) ensures k in Triggers(front) + {KeyOf(last)} {
      var i :| 0 <= i < |all| && KeyOf(all[i]) == k;
      if i < |front| {
        assert all[i] == front[i];
      }
    }
    forall k | k in Triggers(front) ensures k in Triggers(all) {
      var i :| 0 <= i < |front| && KeyOf(front[i]) == k;
      assert all[i] == front[i];
    }
    assert all[|front|] == last;
  }

  /** The stored version is missing, falsy, or differs from the dataset's. */
  predicate Stale(stored: Option<Version>, current: Version) {
    stored.None? || !Truthy(stored.value) || stored.value != current
  }

  /** One run of `loadBangsData`, given what the storage read and the fetch
      produced and whether the storage write succeeds. */
  function LoadBangsData(read: StoreRead, fetched: Fetch, writeOk: bool): (out: Load)
    ensures read.ReadFailed? || fetched.FetchFailed? ==> out == Load(Some(map[]), None)
    ensures (read.ReadOk? && fetched.Fetched? && !Stale(read.stored.version, fetched.data.version))
            ==> out == Load(read.stored.bangs, None)
    ensures (read.ReadOk? && fetched.Fetched? && Stale(read.stored.version, fetched.data.version))
            ==> match fetched.data.bangs
                  case None => out == Load(Some(map[]), None)
                  case Some(records) =>
                    && out.write == Some(Write(fetched.data.version, Rebuild(records)))
                    && out.returned == Some(if writeOk then Rebuild(records) else map[])
  {
    match read
    case ReadFailed => Load(Some(map[]), None)
    case ReadOk(stored) =>
      match fetched
      case FetchFailed => Load(Some(map[]), None)
      case Fetched(data) =>
        if Stale(stored.version, data.version) then
          match data.bangs
          case None => Load(Some(map[]), None)
          case Some(records) =>
            var m := Rebuild(records);
            Load(if writeOk then Some(m) else Some(map[]), Some(Write(data.version, m)))
        else
          Load(stored.bangs, None)
  }

  /** The storage contents after a run: the write replaces both keys at once
      when it succeeds; otherwise storage is left as it was. */
  function Commit(before: Stored, out: Load, writeOk: bool): (after: Stored)
    ensures out.write.None? || !writeOk ==> after == before
    ensures out.write.Some? && writeOk ==>
              after.version == Some(out.write.value.version) && after.bangs == Some(out.write.value.bangs)
  {
    match out.write
    case Some(w) => if writeOk then Stored(Some(w.version), Some(w.bangs)) else before
    case None => before
  }

  /** The map the other handlers read: `result.bangs || {}`. */
  function BangsOf(stored: Stored): BangMap {
    stored.bangs.GetOr(map[])
  }

  /** A second run with the same dataset after a successful first run takes
      the reuse branch: it writes nothing and returns an equal map. */
  lemma SecondRunReuses(stored: Stored, data: Dataset, writeOk: bool)
    requires Truthy(data.version)
    ensures var first := LoadBangsData(ReadOk(stored), Fetched(data), true);
            var after := Commit(stored, first, true);
            var second := LoadBangsData(ReadOk(after), Fetched(data), writeOk);
            first.write.Some? ==> second == Load(first.returned, None)
  {
  }

  /** With a falsy dataset version every run rebuilds and writes again; the
      rebuilt map is the same each time. */
  lemma FalsyVersionAlwaysRebuilds(stored: Stored, data: Dataset, records: seq<Record>, writeOk: bool)
    requires !Truthy(data.version) && data.bangs == Some(records)
    ensures LoadBangsData(ReadOk(stored), Fetched(data), writeOk).write
            == Some(Write(data.version, Rebuild(records)))
  {
  }

  /** After a successful rebuild the stored map is the rebuilt one, and a
      restart that reads storage back sees that same map. */
  lemma RebuildIsStored(stored: Stored, data: Dataset, records: seq<Record>)
    requires data.bangs == Some(records) && Stale(stored.version, data.version)
    ensures var out := LoadBangsData(ReadOk(stored), Fetched(data), true);
            var after := Commit(stored, out, true);
            && after == Stored(Some(data.version), Some(Rebuild(records)))
            && out.returned == Some(BangsOf(after))
  {
  }
}

=== FILE: bang_query.dfy ===
/** `processBangQuery`: split the query at its first space, drop the first
    UTF-16 code unit of the first token to get the trigger, and substitute the
    percent-encoded search terms into that trigger's URL template, or fall
    back to a DuckDuckGo search for the whole query. */
module BangQuery {
  import opened Wrappers
  import opened Text
  import opened UriComponent
  import opened BangData

  /** The placeholder that `/\{\{\{s\}\}\}/g` matches. */
  const Placeholder: string := "{{{s}}}"

  const FallbackPrefix: string := "https://duckduckgo.com/?q="

  /** A query as `processBangQuery` sees it: the first space-delimited
      token, the trigger taken from it, and the search terms. A trigger of
      `None` is one no key can equal (see `DropFirstCodeUnit`). */
  datatype Query = Query(token: string, trigger: Option<string>, searchTerms: string)

  /** `substring(1)` drops one UTF-16 code unit. For a first character in
      the Basic Multilingual Plane that is the whole character. A character
      above U+FFFF is two code units, and dropping the first leaves a lone
      low surrogate in front of the rest; such a string is not a sequence of
      Unicode scalar values, so it equals no key of the trigger map, and it
      is `None` here. The empty token stays empty. */
  function DropFirstCodeUnit(token: string): (r: Option<string>)
    ensures token == [] ==> r == Some([])
    ensures token != [] && token[0] as int < 0x10000 <==> r.Some? && |r.value| + 1 == |token|
    ensures r.Some? ==> token == [] || token == [token[0]] + r.value
  {
    if token == [] then Some([])
    else if token[0] as int < 0x10000 then Some(token[1..])
    else None
  }

  /** The first piece of the query split at single spaces, the trigger that
      piece gives without its first code unit, and the remaining pieces
      re-joined with single spaces. */
  function ParseQuery(query: string): Query {
    var parts := SplitOn(query, " ");
    var token := parts[0];
    Query(token, DropFirstCodeUnit(token), Join(parts[1..], " "))
  }

  /** The token holds no space; with a space in the query, token, one space
      and terms make up the query exactly, and without one the token is the
      whole query; the trigger is the token without its first code unit. */
  lemma ParseQueryShape(query: string)
    ensures var q := ParseQuery(query);
            && ' ' !in q.token
            && (' ' in query ==> q.token + " " + q.searchTerms == query)
            && (' ' !in query ==> q.token == query && q.searchTerms == "")
            && (q.token == [] ==> q.trigger == Some([]))
            && (q.token != [] && q.token[0] as int < 0x10000 ==> q.trigger == Some(q.token[1..]))
            && (q.token != [] && q.token[0] as int >= 0x10000 ==> q.trigger.None?)
  {
    var q := ParseQuery(query);
    ContainsChar(query, ' ');
    SplitFirst(query, " ");
    ContainsChar(q.token, ' ');
  }

  /** A split at a space-free prefix is the split `ParseQuery` makes. */
  lemma ParseAt(query: string, token: string, terms: string)
    requires ' ' !in token && query == token + " " + terms
    ensures ParseQuery(query).token == token && ParseQuery(query).searchTerms == terms
  {
    var q := ParseQuery(query);
    ParseQueryShape(query);
    assert ' ' in query by { assert query[|token|] == ' '; }
    assert forall i :: 0 <= i < |token| ==> query[i] == token[i];
    assert forall i :: 0 <= i < |q.token| ==> query[i] == q.token[i];
    assert query[|token|] == ' ' && query[|q.token|] == ' ';
    assert |q.token| == |token|;
    assert q.token == query[..|token|] == token;
    assert query[|token| + 1..] == terms;
    assert (q.token + " " + q.searchTerms)[|token| + 1..] == q.searchTerms;
  }

  /** The first character of the query is a marker that never reaches the
      lookup: the search terms are those of the rest of the query, and so is
      the trigger when the marker is one UTF-16 code unit. A marker above
      U+FFFF leaves half of it in the trigger, which then matches no key. */
  lemma MarkerIgnored(c: char, rest: string)
    requires c != ' '
    ensures var q := ParseQuery([c] + rest);
            var r := ParseQuery(rest);
            && q.searchTerms == r.searchTerms
            && (c as int < 0x10000 ==> q.trigger == Some(r.token))
            && (c as int >= 0x10000 ==> q.trigger.None?)
  {
    if ' ' in rest {
      MarkerBeforeSpace(c, rest);
    } else {
      MarkerWithoutSpace(c, rest);
    }
    var r := ParseQuery(rest);
    ParseQueryShape([c] + rest);
    assert ([c] + r.token)[1..] == r.token;
  }

  lemma MarkerBeforeSpace(c: char, rest: string)
    requires c != ' ' && ' ' in rest
    ensures var q := ParseQuery([c] + rest);
            var r := ParseQuery(rest);
            q.token == [c] + r.token && q.searchTerms == r.searchTerms
  {
    var r := ParseQuery(rest);
    ParseQueryShape(rest);
    var t := [c] + r.token;
    assert [c] + rest == t + " " + r.searchTerms;
    ParseAt([c] + rest, t, r.searchTerms);
  }

  lemma MarkerWithoutSpace(c: char, rest: string)
    requires c != ' ' && ' ' !in rest
    ensures var q := ParseQuery([c] + rest);
            var r := ParseQuery(rest);
            q.token == [c] + r.token && q.searchTerms == r.searchTerms
  {
    var query := [c] + rest;
    assert ' ' !in query by {
      assert forall i :: 1 <= i < |query| ==> query[i] == rest[i - 1];
    }
    ParseQueryShape(query);
    ParseQueryShape(rest);
    assert query[1..] == rest;
  }

  /** The template of a known trigger, when its `url` is truthy. */
  function Template(bangs: BangMap, trigger: string): (t: Option<string>)
    ensures t.Some? <==> trigger in bangs && Present(bangs[trigger].url)
    ensures t.Some? ==> t == bangs[trigger].url && t.value != ""
  {
    if trigger in bangs && Present(bangs[trigger].url) then bangs[trigger].url else None
  }

  /** The template a parsed trigger reaches; a trigger no key can equal
      reaches none. */
  function TemplateFor(bangs: BangMap, trigger: Option<string>): Option<string> {
    match trigger
    case Some(t) => Template(bangs, t)
    case None => None
  }

  /** The DuckDuckGo search for the whole query. */
  function Fallback(query: string): (r: string)
    ensures StartsWith(r, FallbackPrefix)
    ensures Decode(r[|FallbackPrefix|..]) == Some(query)
  {
    DecodeEncode(query);
    var r := FallbackPrefix + Encode(query);
    assert r[|FallbackPrefix|..] == Encode(query);
    r
  }

  /** The redirect for a looked-up trigger: its template with every
      placeholder replaced by the encoded search terms, or the fallback
      search for `query` when the trigger has no usable template. */
  function Redirect(query: string, trigger: Option<string>, terms: string, bangs: BangMap): (r: string)
    ensures match TemplateFor(bangs, trigger)
            case Some(url) =>
              && r == Join(SplitOn(url, Placeholder), Encode(terms))
              && (!Contains(url, Placeholder) ==> r == url)
            case None =>
              && StartsWith(r, FallbackPrefix) && r != ""
              && Decode(r[|FallbackPrefix|..]) == Some(query)
  {
    match TemplateFor(bangs, trigger)
    case Some(url) =>
      ReplaceIsSplitJoin(url, Placeholder, Encode(terms));
      ReplaceWithoutMatch(url, Placeholder, Encode(terms));
      ReplaceAll(url, Placeholder, Encode(terms))
    case None => Fallback(query)
  }

  /** `processBangQuery(query)` over the stored trigger map. On a hit the
      result is the template with every placeholder occurrence replaced by
      the encoded search terms (a template without one comes back as is);
      on a miss it is the fallback search, whose `q` value decodes back to
      the original query, marker included. */
  function ProcessBangQuery(query: string, bangs: BangMap): (r: string)
    ensures var q := ParseQuery(query);
            match TemplateFor(bangs, q.trigger)
            case Some(url) =>
              && r == Join(SplitOn(url, Placeholder), Encode(q.searchTerms))
              && (!Contains(url, Placeholder) ==> r == url)
            case None =>
              && StartsWith(r, FallbackPrefix) && r != ""
              && Decode(r[|FallbackPrefix|..]) == Some(query)
  {
    var q := ParseQuery(query);
    Redirect(query, q.trigger, q.searchTerms, bangs)
  }

  /** On a hit the marker character does not matter: any two non-space
      markers of one code unit in front of the same text resolve to the same
      URL. */
  lemma HitIgnoresMarker(c1: char, c2: char, rest: string, bangs: BangMap)
    requires c1 != ' ' && c2 != ' ' && c1 as int < 0x10000 && c2 as int < 0x10000
    requires Template(bangs, ParseQuery(rest).token).Some?
    ensures ProcessBangQuery([c1] + rest, bangs) == ProcessBangQuery([c2] + rest, bangs)
  {
    MarkerIgnored(c1, rest);
    MarkerIgnored(c2, rest);
  }

  /** A marker above U+FFFF always misses: the query goes to the fallback
      search whatever the rest of it is. */
  lemma AstralMarkerMisses(c: char, rest: string, bangs: BangMap)
    requires c as int >= 0x10000
    ensures ProcessBangQuery([c] + rest, bangs) == FallbackPrefix + Encode([c] + rest)
  {
    MarkerIgnored(c, rest);
  }

  /** A template whose text before the placeholder holds no `{` and which
      has nothing after it receives the encoded terms in the placeholder's
      place. */
  lemma SubstituteAtEnd(pre: string, terms: string)
    requires '{' !in pre
    ensures ReplaceAll(pre + Placeholder, Placeholder, Encode(terms)) == pre + Encode(terms)
  {
    ReplaceSkipsPrefix(pre, Placeholder, Placeholder, Encode(terms));
    ReplaceLeading(Placeholder, "", Encode(terms));
    assert Placeholder + "" == Placeholder;
    ReplaceWithoutMatch("", Placeholder, Encode(terms));
  }

  /** The encoding of a single space. */
  lemma EncodeSpace()
    ensures Encode(" ") == "%20"
  {
    assert Utf8(' ') == [32];
    assert EscapeAll([32]) == Escape(32) + EscapeAll([]);
  }

  /** Two words joined by one space encode with `%20` between them. */
  lemma EncodeTwoWords(a: string, b: string)
    requires forall i :: 0 <= i < |a| ==> Unreserved(a[i])
    requires forall i :: 0 <= i < |b| ==> Unreserved(b[i])
    ensures Encode(a + " " + b) == a + "%20" + b
  {
    EncodeAppend(a + " ", b);
    EncodeAppend(a, " ");
    EncodeSpace();
  }

  /** Hit: a trigger with a non-empty template resolves to that template
      with every placeholder replaced by `encodeURIComponent(searchTerms)`. */
  lemma ResolveHit(query: string, bangs: BangMap, url: string)
    requires TemplateFor(bangs, ParseQuery(query).trigger) == Some(url)
    ensures ProcessBangQuery(query, bangs)
            == ReplaceAll(url, Placeholder, Encode(ParseQuery(query).searchTerms))
  {
  }

  /** Miss: an absent trigger, or one whose template is missing or empty,
      resolves to the DuckDuckGo search for the whole original query. */
  lemma ResolveMiss(query: string, bangs: BangMap)
    requires TemplateFor(bangs, ParseQuery(query).trigger).None?
    ensures ProcessBangQuery(query, bangs) == FallbackPrefix + Encode(query)
  {
  }

  /** A query typed as a marked token, one space and search terms: on a hit
      the terms go into the template of the token without its marker (a
      marker of one code unit; `AstralMarkerMisses` covers the others). */
  lemma HitFor(token: string, terms: string, bangs: BangMap, url: string)
    requires ' ' !in token && token != [] && token[0] as int < 0x10000
    requires Template(bangs, token[1..]) == Some(url)
    ensures ProcessBangQuery(token + " " + terms, bangs) == ReplaceAll(url, Placeholder, Encode(terms))
  {
    ParseAt(token + " " + terms, token, terms);
    ResolveHit(token + " " + terms, bangs, url);
  }

  /** The same query on a miss: the fallback search for all of it. A marker
      above U+FFFF always misses. */
  lemma MissFor(token: string, terms: string, bangs: BangMap)
    requires ' ' !in token && token != []
    requires token[0] as int < 0x10000 ==> Template(bangs, token[1..]).None?
    ensures ProcessBangQuery(token + " " + terms, bangs) == FallbackPrefix + Encode(token + " " + terms)
  {
    ParseAt(token + " " + terms, token, terms);
    ResolveMiss(token + " " + terms, bangs);
  }

  /** A query like `!g hello world` against a template that ends in the
      placeholder (`https://example.com/search?q={{{s}}}`, say): the two
      words land in the placeholder's place joined by `%20`. */
  lemma HitTwoWords(bang: string, a: string, b: string, pre: string, bangs: BangMap)
    requires ' ' !in bang && bang != [] && bang[0] as int < 0x10000 && '{' !in pre
    requires Template(bangs, bang[1..]) == Some(pre + Placeholder)
    requires forall i :: 0 <= i < |a| ==> Unreserved(a[i])
    requires forall i :: 0 <= i < |b| ==> Unreserved(b[i])
    ensures ProcessBangQuery(bang + " " + (a + " " + b), bangs) == pre + (a + "%20" + b)
  {
    HitFor(bang, a + " " + b, bangs, pre + Placeholder);
    SubstituteAtEnd(pre, a + " " + b);
    EncodeTwoWords(a, b);
  }

  /** A query like `!zzz test` whose trigger has no template: the fallback
      search for the query, marker included, as `!zzz%20test`. */
  lemma MissTwoWords(bang: string, terms: string, bangs: BangMap)
    requires ' ' !in bang && bang != [] && Template(bangs, bang[1..]).None?
    requires forall i :: 0 <= i < |bang| ==> Unreserved(bang[i])
    requires forall i :: 0 <= i < |terms| ==> Unreserved(terms[i])
    ensures ProcessBangQuery(bang + " " + terms, bangs) == FallbackPrefix + (bang + "%20" + terms)
  {
    MissFor(bang, terms, bangs);
    EncodeTwoWords(bang, terms);
  }

  /** A template that is only the placeholder turns the query into its
      encoded search terms alone, which are empty exactly when the terms
      are. */
  lemma PlaceholderOnlyTemplate(token: string, terms: string, bangs: BangMap)
    requires ' ' !in token && token != [] && token[0] as int < 0x10000
    requires Template(bangs, token[1..]) == Some(Placeholder)
    ensures ProcessBangQuery(token + " " + terms, bangs) == Encode(terms)
    ensures ProcessBangQuery(token + " " + terms, bangs) == "" <==> terms == ""
  {
    HitFor(token, terms, bangs, Placeholder);
    SubstituteAtEnd("", terms);
    assert "" + Placeholder == Placeholder;
    assert "" + Encode(terms) == Encode(terms);
  }

  /** A template that is only the placeholder, with no search terms, yields
      the empty string, which the callers treat as "no redirect". */
  lemma EmptyTemplateRedirect(token: string, bangs: BangMap)
    requires ' ' !in token && token != [] && token[0] as int < 0x10000
    requires Template(bangs, token[1..]) == Some(Placeholder)
    ensures ProcessBangQuery(token, bangs) == ""
  {
    ParseQueryShape(token);
    assert Encode("") == "";
    ReplaceLeading(Placeholder, "", "");
    assert Placeholder + "" == Placeholder;
    ReplaceWithoutMatch("", Placeholder, "");
  }
}

=== FILE: dispatch.dfy ===
/** The navigation handlers: `onBeforeNavigate` acts only on a `q` value
    that starts with `!` and then updates the navigating tab or opens a new
    one; `onInputEntered` resolves the omnibox text and updates the current
    tab. The host calls they end in are returned as `Navigation` values. */
module Dispatch {
  import opened Wrappers
  import opened Text
  import opened UriComponent
  import opened BangData
  import opened BangQuery
  import opened Suggestions

  /** `chrome.tabs.update(tabId, {url})`, `chrome.tabs.create({url})` and
      `chrome.tabs.update({url})` (the current tab). */
  datatype Navigation =
    | UpdateTab(tabId: int, url: string)
    | CreateTab(url: string)
    | UpdateCurrentTab(url: string)

  /** Update the navigating tab when there is one, else open a new tab. */
  function TabDispatch(tabId: Option<int>, url: string): (n: Navigation)
    ensures n.url == url
    ensures tabId.Some? <==> n.UpdateTab?
    ensures tabId.Some? ==> n.tabId == tabId.value
    ensures !n.UpdateCurrentTab?
  {
    match tabId
    case Some(id) => UpdateTab(id, url)
    case None => CreateTab(url)
  }

  /** The `onBeforeNavigate` listener, given the value of the URL's `q`
      parameter (`None` when it has none) and the tab id of the event. It
      navigates exactly when `q` starts with `!` and resolves to a non-empty
      URL, and then to that URL, in the navigating tab when there is one. */
  function OnBeforeNavigate(q: Option<string>, tabId: Option<int>, bangs: BangMap): (r: Option<Navigation>)
    ensures r.Some? <==> q.Some? && StartsWith(q.value, "!") && ProcessBangQuery(q.value, bangs) != ""
    ensures r.Some? ==> r.value == TabDispatch(tabId, ProcessBangQuery(q.value, bangs))
  {
    match q
    case None => None
    case Some(query) =>
      if StartsWith(query, "!") then
        var redirectUrl := ProcessBangQuery(query, bangs);
        if redirectUrl != "" then Some(TabDispatch(tabId, redirectUrl)) else None
      else None
  }

  /** A marked query whose trigger is unknown still ends on a page: the
      fallback search for the whole query. */
  lemma UnknownBangStillNavigates(query: string, tabId: Option<int>, bangs: BangMap)
    requires StartsWith(query, "!")
    requires TemplateFor(bangs, ParseQuery(query).trigger).None?
    ensures OnBeforeNavigate(Some(query), tabId, bangs)
            == Some(TabDispatch(tabId, FallbackPrefix + Encode(query)))
  {
    ResolveMiss(query, bangs);
  }

  /** A marked search whose trigger's template is only the placeholder, with
      no search terms, resolves to the empty string, and the listener then
      leaves the navigation alone. */
  lemma EmptyTemplateDoesNotNavigate(token: string, tabId: Option<int>, bangs: BangMap)
    requires ' ' !in token && StartsWith(token, "!")
    requires Template(bangs, token[1..]) == Some(Placeholder)
    ensures OnBeforeNavigate(Some(token), tabId, bangs).None?
  {
    assert token[0] == '!';
    EmptyTemplateRedirect(token, bangs);
  }

  /** With search terms after it, the same marked trigger navigates to the
      encoded terms alone, as though they were a URL; with empty terms
      nothing navigates. */
  lemma PlaceholderOnlyNavigatesToTerms(token: string, terms: string, tabId: Option<int>, bangs: BangMap)
    requires ' ' !in token && StartsWith(token, "!")
    requires Template(bangs, token[1..]) == Some(Placeholder)
    ensures OnBeforeNavigate(Some(token + " " + terms), tabId, bangs)
            == if terms == "" then None else Some(TabDispatch(tabId, Encode(terms)))
  {
    assert token[0] == '!';
    assert StartsWith(token + " " + terms, "!") by {
      assert (token + " " + terms)[0] == token[0];
    }
    PlaceholderOnlyTemplate(token, terms, bangs);
  }

  /** The `onInputEntered` listener as written: the omnibox text goes through
      `processBangQuery`, which drops the first UTF-16 code unit of the
      first token. */
  function OnInputEnteredAsWritten(text: string, bangs: BangMap): (r: Option<Navigation>)
    ensures r.Some? <==> ProcessBangQuery(text, bangs) != ""
    ensures r.Some? ==> r.value == UpdateCurrentTab(ProcessBangQuery(text, bangs))
  {
    var redirectUrl := ProcessBangQuery(text, bangs);
    if redirectUrl != "" then Some(UpdateCurrentTab(redirectUrl)) else None
  }

  /** As written, choosing a suggestion `key terms` looks up the key without
      its first code unit, and a key whose first character is above U+FFFF
      reaches no template at all. */
  lemma AsWrittenDropsFirstCharacter(key: string, terms: string, bangs: BangMap)
    requires ' ' !in key && key != []
    ensures key[0] as int < 0x10000 ==>
              ProcessBangQuery(key + " " + terms, bangs)
              == Redirect(key + " " + terms, Some(key[1..]), terms, bangs)
    ensures key[0] as int >= 0x10000 ==>
              ProcessBangQuery(key + " " + terms, bangs) == Fallback(key + " " + terms)
  {
    ParseAt(key + " " + terms, key, terms);
  }

  /** As written, entering the suggestion offered for a stored key goes to
      the fallback search for the suggestion text, not to the key's
      template, whenever the key without its first code unit has no
      template (always, when the first character is above U+FFFF). */
  lemma SuggestionMissesAsWritten(key: string, terms: string, bangs: BangMap)
    requires ' ' !in key && key != [] && key in bangs
    requires key[0] as int < 0x10000 ==> Template(bangs, key[1..]).None?
    ensures var content := MakeSuggestion(key, bangs[key], terms).content;
            OnInputEnteredAsWritten(content, bangs)
            == Some(UpdateCurrentTab(FallbackPrefix + Encode(content)))
  {
    MissFor(key, terms, bangs);
  }

  /** Concretely: with only a `yt` bang stored, the suggestion the omnibox
      offers for `yt cats` has content `yt cats`, and entering it does not
      reach the `yt` template but the fallback search for `yt cats`. */
  lemma SuggestionMisresolvedAsWritten(bangs: BangMap, url: string)
    requires bangs == map["yt" := Entry(Some("yt"), Some("youtube.com"), Some(url), "YouTube")]
    requires url != ""
    ensures MakeSuggestion("yt", bangs["yt"], "cats").content == "yt cats"
    ensures OnInputEnteredAsWritten("yt cats", bangs)
            == Some(UpdateCurrentTab(FallbackPrefix + Encode("yt cats")))
  {
    var yt, cats := "yt", "cats";
    assert yt + " " + cats == "yt cats";
    AsWrittenDropsFirstCharacter(yt, cats, bangs);
    assert yt[1..] == "t";
    assert Template(bangs, "t") == None;
  }

  /** The omnibox resolution the suggestions are built for: the first token
      is the trigger itself, as the suggestion filter treats it. */
  function ResolveOmnibox(text: string, bangs: BangMap): string {
    var q := ParseQuery(text);
    Redirect(text, Some(q.token), q.searchTerms, bangs)
  }

  /** Choosing a suggestion `key terms` resolves the suggested key itself,
      with the terms that were typed. */
  lemma SelectedSuggestionResolves(key: string, terms: string, bangs: BangMap)
    requires ' ' !in key
    ensures ResolveOmnibox(key + " " + terms, bangs) == Redirect(key + " " + terms, Some(key), terms, bangs)
  {
    ParseAt(key + " " + terms, key, terms);
  }

  /** The `onInputEntered` listener with the omnibox text's first token used
      as the trigger. */
  function OnInputEntered(text: string, bangs: BangMap): (r: Option<Navigation>)
    ensures r.Some? <==> ResolveOmnibox(text, bangs) != ""
    ensures r.Some? ==> r.value == UpdateCurrentTab(ResolveOmnibox(text, bangs))
  {
    var redirectUrl := ResolveOmnibox(text, bangs);
    if redirectUrl != "" then Some(UpdateCurrentTab(redirectUrl)) else None
  }

  /** Entering any suggestion of the list for a known key with a template
      opens that key's template with the typed search terms. */
  lemma EnteredSuggestionOpensTemplate(key: string, terms: string, bangs: BangMap, url: string)
    requires ' ' !in key && Template(bangs, key) == Some(url)
    requires ReplaceAll(url, Placeholder, Encode(terms)) != ""
    ensures OnInputEntered(MakeSuggestion(key, bangs[key], terms).content, bangs)
            == Some(UpdateCurrentTab(ReplaceAll(url, Placeholder, Encode(terms))))
  {
    SelectedSuggestionResolves(key, terms, bangs);
  }
}

=== FILE: html_escape.dfy ===
/** The `escapeHtml` helper of the omnibox suggestion handler: five
    sequential replace-alls that turn the characters the omnibox's XML
    description parser chokes on into character references, `&` first. */
module HtmlEscape {
  import opened Text

  /** The replacement for one character. */
  function EscapeChar(c: char): string {
    if c == '&' then "&amp;"
    else if c == '<' then "&lt;"
    else if c == '>' then "&gt;"
    else if c == '"' then "&quot;"
    else if c == '\'' then "&#39;"
    else [c]
  }

  /** The reference escaper: every character replaced independently. */
  function EscapeEach(s: string): string
    decreases |s|
  {
    if s == [] then [] else EscapeChar(s[0]) + EscapeEach(s[1..])
  }

  /** One of the five references starts at index `i`. */
  predicate EntityAt(s: string, i: nat)
    requires i <= |s|
  {
    var t := s[i..];
    "&amp;" <= t || "&lt;" <= t || "&gt;" <= t || "&quot;" <= t || "&#39;" <= t
  }

  /** No raw `<`, `>`, `"` or `'`, and every `&` begins a reference. */
  predicate Safe(s: string) {
    forall i :: 0 <= i < |s| ==>
      s[i] != '<' && s[i] != '>' && s[i] != '"' && s[i] != '\''
      && (s[i] == '&' ==> EntityAt(s, i))
  }

  /** Decoding of the five references, left to right. */
  function Unescape(s: string): string
    decreases |s|
  {
    if s == [] then []
    else if "&amp;" <= s then "&" + Unescape(s[5..])
    else if "&lt;" <= s then "<" + Unescape(s[4..])
    else if "&gt;" <= s then ">" + Unescape(s[4..])
    else if "&quot;" <= s then "\"" + Unescape(s[6..])
    else if "&#39;" <= s then "'" + Unescape(s[5..])
    else [s[0]] + Unescape(s[1..])
  }

  /** `escapeHtml(str)` for a string argument (an empty one gives ""). The
      result is safe for the omnibox parser and decodes back to `s`. */
  function EscapeHtml(s: string): (r: string)
    ensures s == [] ==> r == []
    ensures Safe(r)
    ensures Unescape(r) == s
  {
    EscapeHtmlIsEscapeEach(s);
    EscapeEachSafe(s);
    UnescapeEscapeEach(s);
    if s == [] then ""
    else
      var amp := ReplaceAll(s, "&", "&amp;");
      var lt := ReplaceAll(amp, "<", "&lt;");
      var gt := ReplaceAll(lt, ">", "&gt;");
      var quot := ReplaceAll(gt, "\"", "&quot;");
      ReplaceAll(quot, "'", "&#39;")
  }

  /** The five substitutions, in the order `escapeHtml` applies them. */
  function Chain(s: string): string {
    SubstChar(SubstChar(SubstChar(SubstChar(SubstChar(s, '&', "&amp;"), '<', "&lt;"), '>', "&gt;"), '"', "&quot;"), '\'', "&#39;")
  }

  lemma {:induction false} SubstAbsent(s: string, c: char, rep: string)
    requires c !in s
    ensures SubstChar(s, c, rep) == s
    decreases |s|
  {
    if s != [] {
      SubstAbsent(s[1..], c, rep);
      assert s == [s[0]] + s[1..];
    }
  }

  lemma SubstSingle(x: char, c: char, rep: string)
    ensures SubstChar([x], c, rep) == if x == c then rep else [x]
  {
    assert [x][1..] == [];
  }

  /** Because `&` goes first, no later step touches the references written
      by an earlier one, and each character ends up as `EscapeChar`. */
  lemma ChainOfChar(x: char)
    ensures Chain([x]) == EscapeChar(x)
  {
    SubstSingle(x, '&', "&amp;");
    if x == '&' {
      LaterStepsFrom1("&amp;");
    } else {
      SubstSingle(x, '<', "&lt;");
      if x == '<' {
        LaterStepsFrom2("&lt;");
      } else {
        SubstSingle(x, '>', "&gt;");
        if x == '>' {
          LaterStepsFrom3("&gt;");
        } else {
          SubstSingle(x, '"', "&quot;");
          SubstSingle(x, '\'', "&#39;");
          if x == '"' {
            SubstAbsent("&quot;", '\'', "&#39;");
          }
        }
      }
    }
  }

  /** The steps after the first leave a string without their characters alone. */
  lemma LaterStepsFrom1(t: string)
    requires '<' !in t && '>' !in t && '"' !in t && '\'' !in t
    ensures SubstChar(SubstChar(SubstChar(SubstChar(t, '<', "&lt;"), '>', "&gt;"), '"', "&quot;"), '\'', "&#39;") == t
  {
    SubstAbsent(t, '<', "&lt;");
    LaterStepsFrom2(t);
  }

  lemma LaterStepsFrom2(t: string)
    requires '>' !in t && '"' !in t && '\'' !in t
    ensures SubstChar(SubstChar(SubstChar(t, '>', "&gt;"), '"', "&quot;"), '\'', "&#39;") == t
  {
    SubstAbsent(t, '>', "&gt;");
    LaterStepsFrom3(t);
  }

  lemma LaterStepsFrom3(t: string)
    requires '"' !in t && '\'' !in t
    ensures SubstChar(SubstChar(t, '"', "&quot;"), '\'', "&#39;") == t
  {
    SubstAbsent(t, '"', "&quot;");
    SubstAbsent(t, '\'', "&#39;");
  }

  lemma ChainAppend(a: string, b: string)
    ensures Chain(a + b) == Chain(a) + Chain(b)
  {
    var a1, b1 := SubstChar(a, '&', "&amp;"), SubstChar(b, '&', "&amp;");
    SubstCharAppend(a, b, '&', "&amp;");
    var a2, b2 := SubstChar(a1, '<', "&lt;"), SubstChar(b1, '<', "&lt;");
    SubstCharAppend(a1, b1, '<', "&lt;");
    var a3, b3 := SubstChar(a2, '>', "&gt;"), SubstChar(b2, '>', "&gt;");
    SubstCharAppend(a2, b2, '>', "&gt;");
    var a4, b4 := SubstChar(a3, '"', "&quot;"), SubstChar(b3, '"', "&quot;");
    SubstCharAppend(a3, b3, '"', "&quot;");
    SubstCharAppend(a4, b4, '\'', "&#39;");
  }

  lemma {:induction false} ChainIsEscapeEach(s: string)
    ensures Chain(s) == EscapeEach(s)
    decreases |s|
  {
    if s == [] {
    } else {
      assert s == [s[0]] + s[1..];
      ChainAppend([s[0]], s[1..]);
      ChainOfChar(s[0]);
      ChainIsEscapeEach(s[1..]);
    }
  }

  /** The five sequential replace-alls escape each character independently. */
  lemma EscapeHtmlIsEscapeEach(s: string)
    ensures s != [] ==>
      ReplaceAll(ReplaceAll(ReplaceAll(ReplaceAll(ReplaceAll(
        s, "&", "&amp;"), "<", "&lt;"), ">", "&gt;"), "\"", "&quot;"), "'", "&#39;")
      == EscapeEach(s)
  {
    var s1 := ReplaceAll(s, "&", "&amp;");
    ReplaceCharIsSubst(s, '&', "&amp;");
    var s2 := ReplaceAll(s1, "<", "&lt;");
    ReplaceCharIsSubst(s1, '<', "&lt;");
    var s3 := ReplaceAll(s2, ">", "&gt;");
    ReplaceCharIsSubst(s2, '>', "&gt;");
    var s4 := ReplaceAll(s3, "\"", "&quot;");
    ReplaceCharIsSubst(s3, '"', "&quot;");
    ReplaceCharIsSubst(s4, '\'', "&#39;");
    ChainIsEscapeEach(s);
  }

  lemma SafeAppend(a: string, b: string)
    requires Safe(a) && Safe(b)
    ensures Safe(a + b)
  {
    var s := a + b;
    forall i | 0 <= i < |s| && s[i] == '&' ensures EntityAt(s, i) {
      if i < |a| {
        assert EntityAt(a, i);
        assert s[i..] == a[i..] + b;
      } else {
        assert b[i - |a|] == '&';
        assert EntityAt(b, i - |a|);
        assert s[i..] == b[i - |a|..];
      }
    }
    forall i | 0 <= i < |s| ensures s[i] != '<' && s[i] != '>' && s[i] != '"' && s[i] != '\'' {
      if i >= |a| {
        assert s[i] == b[i - |a|];
      }
    }
  }

  lemma {:induction false} EscapeEachSafe(s: string)
    ensures Safe(EscapeEach(s))
    decreases |s|
  {
    if s != [] {
      EscapeCharSafe(s[0]);
      EscapeEachSafe(s[1..]);
      SafeAppend(EscapeChar(s[0]), EscapeEach(s[1..]));
    }
  }

  lemma EscapeCharSafe(c: char)
    ensures Safe(EscapeChar(c))
  {
    if c == '&' {
      assert EntityAt(EscapeChar(c), 0);
    }
  }

  lemma UnescapeEscapeChar(x: char, rest: string)
    ensures Unescape(EscapeChar(x) + rest) == [x] + Unescape(rest)
  {
    var s := EscapeChar(x) + rest;
    if x == '&' {
      UnescapeAmp(s, rest);
    } else if x == '<' {
      UnescapeLt(s, rest);
    } else if x == '>' {
      UnescapeGt(s, rest);
    } else if x == '"' {
      UnescapeQuot(s, rest);
    } else if x == '\'' {
      UnescapeApos(s, rest);
    } else {
      assert s[0] == x && s[1..] == rest;
    }
  }

  lemma UnescapeAmp(s: string, rest: string)
    requires s == "&amp;" + rest
    ensures Unescape(s) == "&" + Unescape(rest)
  {
    assert s[5..] == rest;
  }

  lemma UnescapeLt(s: string, rest: string)
    requires s == "&lt;" + rest
    ensures Unescape(s) == "<" + Unescape(rest)
  {
    assert s[1] == 'l' && s[4..] == rest;
  }

  lemma UnescapeGt(s: string, rest: string)
    requires s == "&gt;" + rest
    ensures Unescape(s) == ">" + Unescape(rest)
  {
    assert s[1] == 'g' && s[4..] == rest;
  }

  lemma UnescapeQuot(s: string, rest: string)
    requires s == "&quot;" + rest
    ensures Unescape(s) == "\"" + Unescape(rest)
  {
    assert s[1] == 'q' && s[6..] == rest;
  }

  lemma UnescapeApos(s: string, rest: string)
    requires s == "&#39;" + rest
    ensures Unescape(s) == "'" + Unescape(rest)
  {
    assert s[1] == '#' && s[5..] == rest;
  }

  /** Decoding the five references undoes the escaping. */
  lemma {:induction false} UnescapeEscapeEach(s: string)
    ensures Unescape(EscapeEach(s)) == s
    decreases |s|
  {
    if s != [] {
      UnescapeEscapeChar(s[0], EscapeEach(s[1..]));
      UnescapeEscapeEach(s[1..]);
      assert s == [s[0]] + s[1..];
    }
  }
}

=== FILE: suggestions.dfy ===
/** The `onInputChanged` omnibox handler: keep the keys that start with the
    first token as typed, in the map's iteration order, at most five of them,
    each with a `content` to complete to and an escaped `description`. */
module Suggestions {
  import opened Wrappers
  import opened Text
  import opened HtmlEscape
  import opened BangData
  import opened BangQuery

  const MaxSuggestions: nat := 5

  datatype Suggestion = Suggestion(content: string, description: string)

  /** The description line: trigger, ` - `, domain, `: ` and the stored
      description, with an absent trigger or domain reading `undefined`. */
  function RawDescription(e: Entry): string {
    Shown(e.trigger) + " - " + Shown(e.domain) + ": " + e.description
  }

  function MakeSuggestion(key: string, e: Entry, terms: string): Suggestion {
    Suggestion(key + " " + terms, EscapeHtml(RawDescription(e)))
  }

  /** `keys` is `order` with some entries left out and the rest kept in
      their order. */
  predicate Subsequence(keys: seq<string>, order: seq<string>)
    decreases |order|
  {
    || keys == []
    || (&& order != []
        && (|| (&& keys[|keys| - 1] == order[|order| - 1]
                && Subsequence(keys[..|keys| - 1], order[..|order| - 1]))
            || Subsequence(keys, order[..|order| - 1])))
  }

  /** The keys, in iteration order, that start with `prefix`. */
  function Matching(order: seq<string>, prefix: string): (keys: seq<string>)
    ensures |keys| <= |order|
    ensures Subsequence(keys, order)
    ensures forall key :: key in keys <==> key in order && StartsWith(key, prefix)
    decreases |order|
  {
    if order == [] then []
    else
      var n := |order| - 1;
      var front := Matching(order[..n], prefix);
      assert order == order[..n] + [order[n]];
      if StartsWith(order[n], prefix) then
        assert (front + [order[n]])[..|front|] == front;
        front + [order[n]]
      else front
  }

  /** Every entry of a subsequence is an entry of the sequence. */
  lemma {:induction false} SubsequenceIn(keys: seq<string>, order: seq<string>)
    requires Subsequence(keys, order)
    ensures forall key :: key in keys ==> key in order
    decreases |order|
  {
    if keys != [] {
      var n := |order| - 1;
      if keys[|keys| - 1] == order[n] && Subsequence(keys[..|keys| - 1], order[..n]) {
        SubsequenceIn(keys[..|keys| - 1], order[..n]);
        assert keys == keys[..|keys| - 1] + [order[n]];
      } else {
        SubsequenceIn(keys, order[..n]);
      }
      assert order == order[..n] + [order[n]];
    }
  }

  /** When each key is listed once, `Matching` is the only subsequence of
      the order holding exactly the keys that start with `prefix`: the
      suggestions keep the iteration order, and nothing else fixes them. */
  lemma {:induction false} MatchingUnique(keys: seq<string>, order: seq<string>, prefix: string)
    requires Distinct(order) && Subsequence(keys, order)
    requires forall key :: key in keys <==> key in order && StartsWith(key, prefix)
    ensures keys == Matching(order, prefix)
    decreases |order|
  {
    if order != [] {
      var n := |order| - 1;
      var front, x := order[..n], order[n];
      DistinctFront(order);
      MatchingSnoc(order, n, prefix);
      assert order[..n + 1] == order;
      if StartsWith(x, prefix) {
        var init := LastKept(keys, order, prefix);
        MatchingUnique(init, front, prefix);
      } else {
        LastDropped(keys, order, prefix);
        MatchingUnique(keys, front, prefix);
      }
    }
  }

  /** A matching last entry is the last kept key, and the keys before it
      are a selection of the same kind from the rest of the order. */
  lemma LastKept(keys: seq<string>, order: seq<string>, prefix: string) returns (init: seq<string>)
    requires order != [] && Distinct(order) && Subsequence(keys, order)
    requires forall key :: key in keys <==> key in order && StartsWith(key, prefix)
    requires StartsWith(order[|order| - 1], prefix)
    ensures keys == init + [order[|order| - 1]]
    ensures Subsequence(init, order[..|order| - 1])
    ensures forall key :: key in init <==> key in order[..|order| - 1] && StartsWith(key, prefix)
  {
    var n := |order| - 1;
    var front, x := order[..n], order[n];
    DistinctFront(order);
    assert order == front + [x];
    assert x in keys;
    init := keys[..|keys| - 1];
    if !(keys[|keys| - 1] == x && Subsequence(init, front)) {
      SubsequenceIn(keys, front);
      assert false;
    }
    assert keys == init + [x];
    SubsequenceIn(init, front);
  }

  /** A last entry that does not match is not kept, and the keys are a
      selection of the same kind from the rest of the order. */
  lemma LastDropped(keys: seq<string>, order: seq<string>, prefix: string)
    requires order != [] && Subsequence(keys, order)
    requires forall key :: key in keys <==> key in order && StartsWith(key, prefix)
    requires !StartsWith(order[|order| - 1], prefix)
    ensures Subsequence(keys, order[..|order| - 1])
    ensures forall key :: key in keys <==> key in order[..|order| - 1] && StartsWith(key, prefix)
  {
    var n := |order| - 1;
    assert order == order[..n] + [order[n]];
    if keys != [] {
      assert keys[|keys| - 1] in keys;
    }
    SubsequenceIn(keys, order[..n]);
  }

  /** Dropping the last entry keeps a list distinct, and that entry does
      not occur before it. */
  lemma DistinctFront(order: seq<string>)
    requires Distinct(order) && order != []
    ensures Distinct(order[..|order| - 1])
    ensures order[|order| - 1] !in order[..|order| - 1]
  {
    var n := |order| - 1;
    var front := order[..n];
    forall i, j | 0 <= i < j < |front| ensures front[i] != front[j] {
      assert front[i] == order[i] && front[j] == order[j];
    }
    forall i | 0 <= i < n ensures front[i] != order[n] {
      assert front[i] == order[i];
    }
  }

  /** No key occurs twice. */
  predicate Distinct(keys: seq<string>) {
    forall i, j :: 0 <= i < j < |keys| ==> keys[i] != keys[j]
  }

  /** `order` is an iteration order of the map: each key exactly once. */
  predicate KeyOrder(order: seq<string>, bangs: BangMap) {
    && (forall key :: key in order ==> key in bangs)
    && (forall key :: key in bangs ==> key in order)
    && Distinct(order)
  }

  function Min(a: nat, b: nat): nat {
    if a <= b then a else b
  }

  /** The suggestions as a list: the first five matches, each made into a
      suggestion. */
  predicate Suggests(r: seq<Suggestion>, matches: seq<string>, bangs: BangMap, terms: string) {
    && |r| == Min(|matches|, MaxSuggestions)
    && forall k :: 0 <= k < |r| ==>
         matches[k] in bangs && r[k] == MakeSuggestion(matches[k], bangs[matches[k]], terms)
  }

  /** The handler for input `text`, where `order` is the iteration order of
      `Object.entries(bangs)`. `None` means `suggest` is never called, which
      happens exactly for blank input; otherwise the list holds the first
      five keys in `order` that start with the first token, each completed
      with the search terms. */
  method OnInputChanged(text: string, bangs: BangMap, order: seq<string>)
    returns (r: Option<seq<Suggestion>>)
    requires forall key :: key in order ==> key in bangs
    ensures r.None? <==> Blank(text)
    ensures r.Some? ==>
              var q := ParseQuery(text);
              Suggests(r.value, Matching(order, q.token), bangs, q.searchTerms)
  {
    if Blank(text) {
      return None;
    }
    var q := ParseQuery(text);
    var bangTrigger, searchTerms := q.token, q.searchTerms;
    var suggestions: seq<Suggestion> := [];
    var i := 0;
    while i < |order|
      invariant 0 <= i <= |order|
      invariant Suggests(suggestions, Matching(order[..i], bangTrigger), bangs, searchTerms)
    {
      var trigger := order[i];
      SuggestsStep(suggestions, order, i, bangs, bangTrigger, searchTerms);
      if StartsWith(trigger, bangTrigger) && |suggestions| < MaxSuggestions {
        suggestions := suggestions + [MakeSuggestion(trigger, bangs[trigger], searchTerms)];
      }
      i := i + 1;
    }
    assert order[..|order|] == order;
    return Some(suggestions);
  }

  /** One more key of the iteration order: it is appended when it matches
      and fewer than five suggestions have been made. */
  lemma SuggestsStep(r: seq<Suggestion>, order: seq<string>, i: nat, bangs: BangMap, token: string, terms: string)
    requires i < |order| && order[i] in bangs
    requires Suggests(r, Matching(order[..i], token), bangs, terms)
    ensures var key := order[i];
            var next := if StartsWith(key, token) && |r| < MaxSuggestions
                        then r + [MakeSuggestion(key, bangs[key], terms)] else r;
            Suggests(next, Matching(order[..i + 1], token), bangs, terms)
  {
    var key := order[i];
    MatchingSnoc(order, i, token);
    if StartsWith(key, token) {
      if |r| < MaxSuggestions {
        SuggestsAppend(r, Matching(order[..i], token), key, bangs, terms);
      } else {
        SuggestsFull(r, Matching(order[..i], token), key, bangs, terms);
      }
    }
  }

  /** Below the cap, a new match adds its suggestion at the end. */
  lemma SuggestsAppend(r: seq<Suggestion>, m: seq<string>, key: string, bangs: BangMap, terms: string)
    requires Suggests(r, m, bangs, terms) && |r| < MaxSuggestions && key in bangs
    ensures Suggests(r + [MakeSuggestion(key, bangs[key], terms)], m + [key], bangs, terms)
  {
    var next := r + [MakeSuggestion(key, bangs[key], terms)];
    var m' := m + [key];
    forall k | 0 <= k < |next|
      ensures m'[k] in bangs && next[k] == MakeSuggestion(m'[k], bangs[m'[k]], terms)
    {
      if k < |r| {
        assert next[k] == r[k] && m'[k] == m[k];
      }
    }
  }

  /** At the cap, further matches change nothing. */
  lemma SuggestsFull(r: seq<Suggestion>, m: seq<string>, key: string, bangs: BangMap, terms: string)
    requires Suggests(r, m, bangs, terms) && |r| >= MaxSuggestions
    ensures Suggests(r, m + [key], bangs, terms)
  {
    var m' := m + [key];
    forall k | 0 <= k < |r|
      ensures m'[k] in bangs && r[k] == MakeSuggestion(m'[k], bangs[m'[k]], terms)
    {
      assert m'[k] == m[k];
    }
  }

  /** Filtering one more key appends it exactly when it matches. */
  lemma MatchingSnoc(order: seq<string>, i: nat, prefix: string)
    requires i < |order|
    ensures Matching(order[..i + 1], prefix)
            == Matching(order[..i], prefix) + (if StartsWith(order[i], prefix) then [order[i]] else [])
  {
    var o := order[..i + 1];
    assert o[..i] == order[..i];
    assert o[i] == order[i];
  }

  /** Read off a suggestion list: at most five entries, each completing a
      stored key that starts (case-sensitively) with the token as typed,
      followed by one space and the search terms; and when fewer than five
      keys match, every matching key of the map is offered. */
  lemma SuggestionBounds(r: seq<Suggestion>, order: seq<string>, bangs: BangMap, token: string, terms: string)
    requires KeyOrder(order, bangs)
    requires Suggests(r, Matching(order, token), bangs, terms)
    ensures |r| <= MaxSuggestions
    ensures forall k :: 0 <= k < |r| ==> CompletesKey(r[k].content, bangs, token, terms)
    ensures |Matching(order, token)| < MaxSuggestions ==>
              forall key :: key in bangs && StartsWith(key, token) ==>
                exists j :: 0 <= j < |r| && r[j].content == key + " " + terms
  {
    var m := Matching(order, token);
    SuggestionsMatch(r, m, bangs, token, terms);
    if |m| < MaxSuggestions {
      SuggestionsComplete(r, order, bangs, token, terms);
    }
  }

  /** No key is offered twice: the suggestions' contents are pairwise
      different. */
  lemma NoKeyOfferedTwice(r: seq<Suggestion>, order: seq<string>, bangs: BangMap, token: string, terms: string)
    requires KeyOrder(order, bangs)
    requires Suggests(r, Matching(order, token), bangs, terms)
    ensures forall i, j :: 0 <= i < j < |r| ==> r[i].content != r[j].content
  {
    MatchingDistinct(order, token);
    SuggestionsDistinct(r, Matching(order, token), bangs, terms);
  }

  lemma SuggestionsDistinct(r: seq<Suggestion>, m: seq<string>, bangs: BangMap, terms: string)
    requires Suggests(r, m, bangs, terms) && Distinct(m)
    ensures forall i, j :: 0 <= i < j < |r| ==> r[i].content != r[j].content
  {
    forall i, j | 0 <= i < j < |r| ensures r[i].content != r[j].content {
      assert m[i] != m[j];
      assert r[i].content == m[i] + " " + terms && r[j].content == m[j] + " " + terms;
      SameSuffix(m[i], m[j], " ");
      SameSuffix(m[i] + " ", m[j] + " ", terms);
    }
  }

  lemma SuggestionsComplete(r: seq<Suggestion>, order: seq<string>, bangs: BangMap, token: string, terms: string)
    requires forall key :: key in bangs ==> key in order
    requires Suggests(r, Matching(order, token), bangs, terms)
    requires |Matching(order, token)| < MaxSuggestions
    ensures forall key :: key in bangs && StartsWith(key, token) ==>
              exists j :: 0 <= j < |r| && r[j].content == key + " " + terms
  {
    var m := Matching(order, token);
    forall key | key in bangs && StartsWith(key, token)
      ensures exists j :: 0 <= j < |r| && r[j].content == key + " " + terms
    {
      var j :| 0 <= j < |m| && m[j] == key;
      assert r[j].content == m[j] + " " + terms;
    }
  }

  /** `content` completes a stored key that starts with `token`. */
  predicate CompletesKey(content: string, bangs: BangMap, token: string, terms: string) {
    exists key :: key in bangs && StartsWith(key, token) && content == key + " " + terms
  }

  lemma SuggestionsMatch(r: seq<Suggestion>, m: seq<string>, bangs: BangMap, token: string, terms: string)
    requires Suggests(r, m, bangs, terms)
    requires forall key :: key in m ==> StartsWith(key, token)
    ensures forall k :: 0 <= k < |r| ==> CompletesKey(r[k].content, bangs, token, terms)
  {
    forall k | 0 <= k < |r|
      ensures CompletesKey(r[k].content, bangs, token, terms)
    {
      assert m[k] in m;
      assert r[k].content == m[k] + " " + terms;
    }
  }

  /** Filtering keeps keys distinct. */
  lemma {:induction false} MatchingDistinct(order: seq<string>, prefix: string)
    requires Distinct(order)
    ensures Distinct(Matching(order, prefix))
    decreases |order|
  {
    if order != [] {
      var n := |order| - 1;
      var front := order[..n];
      DistinctFront(order);
      MatchingDistinct(front, prefix);
      MatchingSnoc(order, n, prefix);
      assert order[..n + 1] == order;
    }
  }

  /** Two strings followed by the same suffix are equal only if they are. */
  lemma SameSuffix(a: string, b: string, suffix: string)
    requires a != b
    ensures a + suffix != b + suffix
  {
    if |a| == |b| {
      var k :| 0 <= k < |a| && a[k] != b[k];
      assert (a + suffix)[k] == a[k] && (b + suffix)[k] == b[k];
    }
  }
}

=== FILE: text.dfy ===
/** String helpers with the meaning of the JavaScript string methods the
    extension uses: `split`, `join`, `replace` with a global
    pattern, `startsWith` and the white-space test behind `trim`. */
module Text {
  import opened Wrappers

  /** `pat` occurs in `s` at index `i`. */
  predicate OccursAt(s: string, pat: string, i: int) {
    0 <= i && i + |pat| <= |s| && s[i..i + |pat|] == pat
  }

  predicate Contains(s: string, pat: string) {
    exists i | 0 <= i <= |s| :: OccursAt(s, pat, i)
  }

  /** `s.startsWith(prefix)` */
  predicate StartsWith(s: string, prefix: string) {
    prefix <= s
  }

  lemma OccursAtTail(s: string, pat: string, j: nat)
    requires |s| > 0
    ensures OccursAt(s, pat, j + 1) <==> OccursAt(s[1..], pat, j)
  {
    if j + 1 + |pat| <= |s| {
      assert s[1..][j..j + |pat|] == s[j + 1..j + 1 + |pat|];
    }
  }

  /** A one-character pattern occurs exactly when the character does. */
  lemma ContainsChar(s: string, c: char)
    ensures Contains(s, [c]) <==> c in s
  {
    if c in s {
      var i :| 0 <= i < |s| && s[i] == c;
      assert s[i..i + 1] == [c];
      assert OccursAt(s, [c], i);
    }
    if Contains(s, [c]) {
      var i :| 0 <= i <= |s| && OccursAt(s, [c], i);
      assert s[i..i + 1][0] == s[i];
    }
  }

  /** No occurrence in `s` at index 0 or later than index 0 of its tail. */
  lemma NoneInTail(s: string, pat: string)
    requires |s| > 0
    requires !OccursAt(s, pat, 0)
    requires !Contains(s[1..], pat)
    ensures !Contains(s, pat)
  {
    forall j | 0 <= j <= |s| && OccursAt(s, pat, j) ensures false {
      OccursAtTail(s, pat, j - 1);
    }
  }

  /** `parts.join(sep)` */
  function Join(parts: seq<string>, sep: string): string {
    if |parts| == 0 then ""
    else if |parts| == 1 then parts[0]
    else parts[0] + sep + Join(parts[1..], sep)
  }

  lemma JoinCons(head: string, rest: seq<string>, sep: string)
    requires |rest| >= 1
    ensures Join([head] + rest, sep) == head + sep + Join(rest, sep)
  {
    assert ([head] + rest)[1..] == rest;
  }

  /** A character in front of the first piece ends up in front of the join. */
  lemma JoinHead(c: char, first: string, rest: seq<string>, sep: string)
    ensures Join([[c] + first] + rest, sep) == [c] + Join([first] + rest, sep)
  {
    if rest != [] {
      JoinCons([c] + first, rest, sep);
      JoinCons(first, rest, sep);
    }
  }

  /** `s.split(sep)` for a non-empty separator, scanning left to right: an
      occurrence at the front closes the current piece and is skipped, any
      other character extends the current piece. `JoinSplit` and
      `SplitOnPieces` state what the pieces are. */
  function SplitOn(s: string, sep: string): (parts: seq<string>)
    requires |sep| > 0
    ensures |parts| >= 1
    decreases |s|
  {
    if |s| < |sep| then [s]
    else if OccursAt(s, sep, 0) then [[]] + SplitOn(s[|sep|..], sep)
    else
      var rest := SplitOn(s[1..], sep);
      [[s[0]] + rest[0]] + rest[1..]
  }

  /** Joining the pieces of a split with the separator gives back the string. */
  lemma {:induction false} JoinSplit(s: string, sep: string)
    requires |sep| > 0
    ensures Join(SplitOn(s, sep), sep) == s
    decreases |s|
  {
    if |s| < |sep| {
    } else if OccursAt(s, sep, 0) {
      var tail := s[|sep|..];
      JoinSplit(tail, sep);
      JoinAfterSeparator(s, sep, SplitOn(tail, sep));
    } else {
      JoinSplit(s[1..], sep);
      JoinAfterChar(s, sep, SplitOn(s[1..], sep));
    }
  }

  lemma JoinAfterSeparator(s: string, sep: string, rest: seq<string>)
    requires |sep| > 0 && |rest| >= 1 && OccursAt(s, sep, 0)
    requires Join(rest, sep) == s[|sep|..]
    ensures Join([[]] + rest, sep) == s
  {
    JoinCons([], rest, sep);
    assert s == s[..|sep|] + s[|sep|..];
  }

  lemma JoinAfterChar(s: string, sep: string, rest: seq<string>)
    requires |s| > 0 && |rest| >= 1
    requires Join(rest, sep) == s[1..]
    ensures Join([[s[0]] + rest[0]] + rest[1..], sep) == s
  {
    JoinFront(s[0], rest, sep);
    assert s == [s[0]] + s[1..];
  }

  /** The first piece is a prefix of the string. */
  lemma {:induction false} FirstPiecePrefix(s: string, sep: string)
    requires |sep| > 0
    ensures SplitOn(s, sep)[0] <= s
    decreases |s|
  {
    if |s| >= |sep| && !OccursAt(s, sep, 0) {
      FirstPiecePrefix(s[1..], sep);
      assert s == [s[0]] + s[1..];
    }
  }

  /** An occurrence inside a prefix is an occurrence in the whole string. */
  lemma OccursInPrefix(p: string, s: string, pat: string, j: int)
    requires p <= s
    ensures OccursAt(p, pat, j) ==> OccursAt(s, pat, j)
  {
    if OccursAt(p, pat, j) {
      assert s[j..j + |pat|] == p[j..j + |pat|];
    }
  }

  /** Prepending a character that does not start an occurrence adds none. */
  lemma ConsNoOccurrence(s: string, a: string, pat: string)
    requires |pat| > 0 && |s| > 0 && !OccursAt(s, pat, 0)
    requires [s[0]] + a <= s && !Contains(a, pat)
    ensures !Contains([s[0]] + a, pat)
  {
    var p := [s[0]] + a;
    OccursInPrefix(p, s, pat, 0);
    assert p[1..] == a;
    NoneInTail(p, pat);
  }

  /** Without an occurrence at the front, the string has one exactly when
      its tail has. */
  lemma ContainsTail(s: string, pat: string)
    requires |s| > 0 && !OccursAt(s, pat, 0)
    ensures Contains(s, pat) <==> Contains(s[1..], pat)
  {
    if Contains(s[1..], pat) {
      var j :| 0 <= j <= |s[1..]| && OccursAt(s[1..], pat, j);
      OccursAtTail(s, pat, j);
    } else {
      NoneInTail(s, pat);
    }
  }

  /** No piece of a split contains the separator, and there is more than
      one piece exactly when the separator occurs. */
  lemma {:induction false} SplitOnPieces(s: string, sep: string)
    requires |sep| > 0
    ensures forall k :: 0 <= k < |SplitOn(s, sep)| ==> !Contains(SplitOn(s, sep)[k], sep)
    ensures |SplitOn(s, sep)| == 1 <==> !Contains(s, sep)
    decreases |s|
  {
    var parts := SplitOn(s, sep);
    if |s| < |sep| {
    } else if OccursAt(s, sep, 0) {
      var rest := SplitOn(s[|sep|..], sep);
      SplitOnPieces(s[|sep|..], sep);
      assert parts == [[]] + rest;
      forall k | 0 <= k < |parts| ensures !Contains(parts[k], sep) {
        if k > 0 {
          assert parts[k] == rest[k - 1];
        }
      }
    } else {
      var rest := SplitOn(s[1..], sep);
      SplitOnPieces(s[1..], sep);
      FirstPiecePrefix(s, sep);
      ConsNoOccurrence(s, rest[0], sep);
      ContainsTail(s, sep);
      forall k | 0 <= k < |parts| ensures !Contains(parts[k], sep) {
        if k > 0 {
          assert parts[k] == rest[k];
        }
      }
    }
  }

  /** The first `sep`-delimited piece of `s` and the rest re-joined, as
      `parts[0]` and `parts.slice(1).join(sep)` give them for
      `parts = s.split(sep)`: the first piece has no separator, and piece,
      separator and rest make up `s` when it has one; otherwise the piece is
      all of `s` and the rest is empty. */
  lemma SplitFirst(s: string, sep: string)
    requires |sep| > 0
    ensures var parts := SplitOn(s, sep);
            && !Contains(parts[0], sep)
            && (Contains(s, sep) ==> parts[0] + sep + Join(parts[1..], sep) == s)
            && (!Contains(s, sep) ==> parts[0] == s && Join(parts[1..], sep) == "")
  {
    var parts := SplitOn(s, sep);
    SplitOnPieces(s, sep);
    JoinSplit(s, sep);
    if |parts| > 1 {
      JoinCons(parts[0], parts[1..], sep);
      assert parts == [parts[0]] + parts[1..];
    }
  }

  /** `s.replace(/pat/g, rep)` for a replacement without `$` patterns,
      scanning left to right: an occurrence at the front is replaced and
      skipped, any other character is copied. This replaces the leftmost
      non-overlapping occurrences. */
  function ReplaceAll(s: string, pat: string, rep: string): string
    requires |pat| > 0
    decreases |s|
  {
    if |s| < |pat| then s
    else if OccursAt(s, pat, 0) then rep + ReplaceAll(s[|pat|..], pat, rep)
    else [s[0]] + ReplaceAll(s[1..], pat, rep)
  }

  /** Replacing every occurrence is splitting at the occurrences and joining
      the pieces with the replacement (the `s.split(pat).join(rep)` idiom). */
  lemma {:induction false} ReplaceIsSplitJoin(s: string, pat: string, rep: string)
    requires |pat| > 0
    ensures ReplaceAll(s, pat, rep) == Join(SplitOn(s, pat), rep)
    decreases |s|
  {
    if |s| < |pat| {
    } else if OccursAt(s, pat, 0) {
      var tail := s[|pat|..];
      ReplaceIsSplitJoin(tail, pat, rep);
      JoinCons([], SplitOn(tail, pat), rep);
    } else {
      var rest := SplitOn(s[1..], pat);
      ReplaceIsSplitJoin(s[1..], pat, rep);
      JoinFront(s[0], rest, rep);
    }
  }

  lemma JoinFront(c: char, rest: seq<string>, sep: string)
    requires |rest| >= 1
    ensures Join([[c] + rest[0]] + rest[1..], sep) == [c] + Join(rest, sep)
  {
    assert rest == [rest[0]] + rest[1..];
    JoinHead(c, rest[0], rest[1..], sep);
  }

  /** A string without an occurrence of the pattern is returned unchanged. */
  lemma ReplaceWithoutMatch(s: string, pat: string, rep: string)
    requires |pat| > 0
    ensures !Contains(s, pat) ==> ReplaceAll(s, pat, rep) == s
  {
    ReplaceIsSplitJoin(s, pat, rep);
    SplitOnPieces(s, pat);
    JoinSplit(s, pat);
  }

  /** Without a match at index 0, the first character is copied through. */
  lemma ReplaceTail(s: string, pat: string, rep: string)
    requires |pat| > 0 && |s| > 0 && !OccursAt(s, pat, 0)
    ensures ReplaceAll(s, pat, rep) == [s[0]] + ReplaceAll(s[1..], pat, rep)
  {
    if |s| < |pat| {
      assert s == [s[0]] + s[1..];
    }
  }

  /** For a one-character pattern the replacement works character by
      character. */
  lemma ReplaceCharCons(s: string, c: char, rep: string)
    requires |s| > 0
    ensures ReplaceAll(s, [c], rep)
         == (if s[0] == c then rep else [s[0]]) + ReplaceAll(s[1..], [c], rep)
  {
    if s[0] == c {
      assert OccursAt(s, [c], 0);
    } else {
      ReplaceTail(s, [c], rep);
    }
  }

  /** Character-by-character substitution of `rep` for `c`: the reference
      meaning of a replace-all whose pattern is one character. */
  function SubstChar(s: string, c: char, rep: string): string
    decreases |s|
  {
    if s == [] then []
    else (if s[0] == c then rep else [s[0]]) + SubstChar(s[1..], c, rep)
  }

  lemma {:induction false} ReplaceCharIsSubst(s: string, c: char, rep: string)
    ensures ReplaceAll(s, [c], rep) == SubstChar(s, c, rep)
    decreases |s|
  {
    if s != [] {
      ReplaceCharCons(s, c, rep);
      ReplaceCharIsSubst(s[1..], c, rep);
    }
  }

  /** Character-by-character substitution distributes over concatenation. */
  lemma {:induction false} SubstCharAppend(a: string, b: string, c: char, rep: string)
    ensures SubstChar(a + b, c, rep) == SubstChar(a, c, rep) + SubstChar(b, c, rep)
    decreases |a|
  {
    if a == [] {
      assert a + b == b;
    } else {
      assert (a + b)[1..] == a[1..] + b;
      SubstCharAppend(a[1..], b, c, rep);
    }
  }

  /** A prefix that cannot start an occurrence passes through untouched. */
  lemma {:induction false} ReplaceSkipsPrefix(pre: string, post: string, pat: string, rep: string)
    requires |pat| > 0
    requires pat[0] !in pre
    ensures ReplaceAll(pre + post, pat, rep) == pre + ReplaceAll(post, pat, rep)
    decreases |pre|
  {
    if pre == [] {
      assert pre + post == post;
    } else {
      var s := pre + post;
      assert s[0] == pre[0];
      ReplaceTail(s, pat, rep);
      assert s[1..] == pre[1..] + post;
      ReplaceSkipsPrefix(pre[1..], post, pat, rep);
      assert pre == [pre[0]] + pre[1..];
      ConsThen(ReplaceAll(s, pat, rep), ReplaceAll(s[1..], pat, rep), pre[0], pre[1..], ReplaceAll(post, pat, rep));
    }
  }

  lemma ConsThen(r1: string, r2: string, c: char, p: string, x: string)
    requires r1 == [c] + r2 && r2 == p + x
    ensures r1 == ([c] + p) + x
  {
  }

  /** A string that starts with the pattern has its first occurrence replaced. */
  lemma ReplaceLeading(pat: string, post: string, rep: string)
    requires |pat| > 0
    ensures ReplaceAll(pat + post, pat, rep) == rep + ReplaceAll(post, pat, rep)
  {
    var s := pat + post;
    assert OccursAt(s, pat, 0);
    assert s[|pat|..] == post;
  }

  /** The characters `String.prototype.trim` removes: ECMAScript WhiteSpace
      (section 12.2 of ECMA-262) and LineTerminator (section 12.3). */
  predicate IsWhiteSpace(c: char) {
    || c == '\t' || c == '\U{000B}' || c == '\U{000C}' || c == ' '
    || c == '\U{00A0}' || c == '\U{FEFF}' || c == '\U{1680}'
    || ('\U{2000}' <= c <= '\U{200A}')
    || c == '\U{202F}' || c == '\U{205F}' || c == '\U{3000}'
    || c == '\n' || c == '\r' || c == '\U{2028}' || c == '\U{2029}'
  }

  /** `s.trim()` is empty exactly when every character is white space. */
  predicate Blank(s: string) {
    forall i :: 0 <= i < |s| ==> IsWhiteSpace(s[i])
  }
}

=== FILE: uri_component.dfy ===
/** `encodeURIComponent` and its inverse `decodeURIComponent`, as section
    19.2.6 of ECMA-262 defines them: characters of the "unreserved" set of
    section 2.3 of RFC 2396 stay as they are, every other character becomes
    the `%XX` escapes of its UTF-8 bytes, with upper-case hex digits. */
module UriComponent {
  import opened Wrappers

  type Byte = b: int | 0 <= b < 256

  /** Alphanumerics and `-_.!~*'()`. */
  predicate Unreserved(c: char) {
    || ('A' <= c <= 'Z') || ('a' <= c <= 'z') || ('0' <= c <= '9')
    || c == '-' || c == '_' || c == '.' || c == '!' || c == '~'
    || c == '*' || c == '\'' || c == '(' || c == ')'
  }

  const HexDigits: string := "0123456789ABCDEF"

  /** An upper-case hex digit. */
  predicate HexDigit(c: char) {
    ('0' <= c <= '9') || ('A' <= c <= 'F')
  }

  lemma HexDigitsAreHexDigits(k: int)
    requires 0 <= k < 16
    ensures HexDigit(HexDigits[k]) && Unreserved(HexDigits[k])
  {
  }

  /** The UTF-8 encoding of one Unicode scalar value (section 3 of RFC 3629). */
  function Utf8(c: char): (bytes: seq<Byte>)
    ensures 1 <= |bytes| <= 4
  {
    var cp := c as int;
    if cp < 0x80 then [cp]
    else if cp < 0x800 then [0xC0 + cp / 64, 0x80 + cp % 64]
    else if cp < 0x10000 then [0xE0 + cp / 4096, 0x80 + (cp / 64) % 64, 0x80 + cp % 64]
    else [0xF0 + cp / 262144, 0x80 + (cp / 4096) % 64, 0x80 + (cp / 64) % 64, 0x80 + cp % 64]
  }

  /** `%` followed by the two upper-case hex digits of `b`. */
  function Escape(b: Byte): string {
    ['%', HexDigits[b / 16], HexDigits[b % 16]]
  }

  function EscapeAll(bytes: seq<Byte>): (r: string)
    ensures |r| == 3 * |bytes|
  {
    if bytes == [] then [] else Escape(bytes[0]) + EscapeAll(bytes[1..])
  }

  function EncodeChar(c: char): string {
    if Unreserved(c) then [c] else EscapeAll(Utf8(c))
  }

  /** Only unreserved characters and `%` appear. */
  predicate OnlyAllowed(s: string) {
    forall i :: 0 <= i < |s| ==> s[i] == '%' || Unreserved(s[i])
  }

  /** Every `%` is followed by two upper-case hex digits. */
  predicate EscapesComplete(s: string) {
    forall i :: 0 <= i < |s| && s[i] == '%' ==>
      i + 2 < |s| && HexDigit(s[i + 1]) && HexDigit(s[i + 2])
  }

  /** Unreserved characters and `%XX` escapes only. */
  predicate IsEncoded(s: string) {
    OnlyAllowed(s) && EscapesComplete(s)
  }

  lemma {:induction false} EscapeAllIsEncoded(bytes: seq<Byte>)
    ensures IsEncoded(EscapeAll(bytes))
    decreases |bytes|
  {
    if bytes != [] {
      EscapeAllIsEncoded(bytes[1..]);
      EscapeIsEncoded(bytes[0]);
      AppendEncoded(Escape(bytes[0]), EscapeAll(bytes[1..]));
    }
  }

  lemma EscapeIsEncoded(b: Byte)
    ensures IsEncoded(Escape(b))
  {
    HexDigitsAreHexDigits(b / 16);
    HexDigitsAreHexDigits(b % 16);
  }

  lemma AppendEncoded(a: string, b: string)
    requires IsEncoded(a) && IsEncoded(b)
    ensures IsEncoded(a + b)
  {
    AppendAllowed(a, b);
    AppendEscapesComplete(a, b);
  }

  lemma AppendAllowed(a: string, b: string)
    requires OnlyAllowed(a) && OnlyAllowed(b)
    ensures OnlyAllowed(a + b)
  {
    var s := a + b;
    forall i | |a| <= i < |s| ensures s[i] == '%' || Unreserved(s[i]) {
      assert s[i] == b[i - |a|];
    }
  }

  lemma AppendEscapesComplete(a: string, b: string)
    requires EscapesComplete(a) && EscapesComplete(b)
    ensures EscapesComplete(a + b)
  {
    var s := a + b;
    forall i | 0 <= i < |s| && s[i] == '%'
      ensures i + 2 < |s| && HexDigit(s[i + 1]) && HexDigit(s[i + 2])
    {
      if i < |a| {
        assert s[i] == a[i];
      } else {
        var j := i - |a|;
        assert s[i] == b[j] && s[i + 1] == b[j + 1] && s[i + 2] == b[j + 2];
      }
    }
  }

  /** `encodeURIComponent(s)`. The result consists of unreserved characters
      and `%XX` escapes with upper-case hex digits only (so it never holds
      `$`, `{`, `&` or a space), it is empty
      exactly when `s` is, and a string of unreserved characters is left
      unchanged. `DecodeEncode` shows that no information is lost. */
  function Encode(s: string): (r: string)
    ensures IsEncoded(r)
    ensures |r| >= |s|
    ensures r == [] <==> s == []
    ensures (forall i :: 0 <= i < |s| ==> Unreserved(s[i])) ==> r == s
    decreases |s|
  {
    if s == [] then []
    else
      var head := EncodeChar(s[0]);
      var rest := Encode(s[1..]);
      assert IsEncoded(head) by {
        if !Unreserved(s[0]) {
          EscapeAllIsEncoded(Utf8(s[0]));
        }
      }
      AppendEncoded(head, rest);
      assert s == [s[0]] + s[1..];
      head + rest
  }

  /** The value of one hex digit, either case. */
  function HexValue(c: char): Option<nat> {
    if '0' <= c <= '9' then Some(c as int - '0' as int)
    else if 'A' <= c <= 'F' then Some(c as int - 'A' as int + 10)
    else if 'a' <= c <= 'f' then Some(c as int - 'a' as int + 10)
    else None
  }

  /** The byte escaped as `%XX` at index `i`, if there is one. */
  function ByteAt(s: string, i: nat): Option<Byte> {
    if i + 3 <= |s| then EscapedByte(s[i], s[i + 1], s[i + 2]) else None
  }

  function EscapedByte(percent: char, high: char, low: char): Option<Byte> {
    if percent != '%' then None
    else
      var hi :- HexValue(high);
      var lo :- HexValue(low);
      if hi < 16 && lo < 16 then Some(hi * 16 + lo) else None
  }

  /** The payload of the `k`-th escaped byte of a multi-byte sequence, which
      must be a continuation byte `10xxxxxx`. */
  function Continuation(s: string, k: nat): Option<int> {
    match ByteAt(s, 3 * k)
    case None => None
    case Some(b) => if 0x80 <= b < 0xC0 then Some(b - 0x80) else None
  }

  /** One character decoded from the escapes at the start of `s`, and the
      number of characters they occupy. Fails, as `decodeURIComponent`
      throws `URIError`, on a bad escape, a bad lead or continuation byte,
      an overlong form, a surrogate or a value past U+10FFFF. */
  function DecodeSequence(s: string): (r: Option<(char, nat)>)
    ensures r.Some? ==> 3 <= r.value.1 <= |s|
  {
    var b0 :- ByteAt(s, 0);
    if b0 < 0x80 then Some((b0 as char, 3))
    else if 0xC0 <= b0 < 0xE0 then
      var c1 :- Continuation(s, 1);
      ScalarOf((b0 - 0xC0) * 64 + c1, 0x80, 6)
    else if 0xE0 <= b0 < 0xF0 then
      var c1 :- Continuation(s, 1);
      var c2 :- Continuation(s, 2);
      ScalarOf((b0 - 0xE0) * 4096 + c1 * 64 + c2, 0x800, 9)
    else if 0xF0 <= b0 < 0xF8 then
      var c1 :- Continuation(s, 1);
      var c2 :- Continuation(s, 2);
      var c3 :- Continuation(s, 3);
      ScalarOf((b0 - 0xF0) * 262144 + c1 * 4096 + c2 * 64 + c3, 0x10000, 12)
    else None
  }

  /** The code point `cp` as a character when it is a scalar value not
      below `least` (the smallest value needing that many bytes). */
  function ScalarOf(cp: int, least: nat, width: nat): Option<(char, nat)> {
    if cp < least || (0xD800 <= cp < 0xE000) || cp >= 0x110000 then None
    else Some((cp as char, width))
  }

  /** `decodeURIComponent(s)`, with `None` for the `URIError` cases. */
  function Decode(s: string): Option<string>
    decreases |s|
  {
    if s == [] then Some([])
    else if s[0] != '%' then
      var rest :- Decode(s[1..]);
      Some([s[0]] + rest)
    else
      var (c, width) :- DecodeSequence(s);
      var rest :- Decode(s[width..]);
      Some([c] + rest)
  }

  lemma HexDigitValue(d: nat)
    requires d < 16
    ensures HexValue(HexDigits[d]) == Some(d)
  {
  }

  /** The `k`-th escape of `EscapeAll(bytes)` is that of `bytes[k]`. */
  lemma {:induction false} EscapeAllIndex(bytes: seq<Byte>, k: nat)
    requires k < |bytes|
    ensures EscapeAll(bytes)[3 * k] == '%'
    ensures EscapeAll(bytes)[3 * k + 1] == HexDigits[bytes[k] / 16]
    ensures EscapeAll(bytes)[3 * k + 2] == HexDigits[bytes[k] % 16]
    decreases k
  {
    var tail := EscapeAll(bytes[1..]);
    assert EscapeAll(bytes) == Escape(bytes[0]) + tail;
    if k > 0 {
      EscapeAllIndex(bytes[1..], k - 1);
      assert bytes[1..][k - 1] == bytes[k];
    }
  }

  /** Each escape written by `EscapeAll` reads back as its byte. */
  lemma ByteAtEscapes(bytes: seq<Byte>, rest: string, k: nat)
    requires k < |bytes|
    ensures ByteAt(EscapeAll(bytes) + rest, 3 * k) == Some(bytes[k])
  {
    var pre := EscapeAll(bytes);
    var s := pre + rest;
    var i, b := 3 * k, bytes[k];
    EscapeAllIndex(bytes, k);
    assert s[i] == '%' && s[i + 1] == HexDigits[b / 16] && s[i + 2] == HexDigits[b % 16];
    EscapeReadsAt(s, i, b);
  }

  lemma EscapeReadsAt(s: string, i: nat, b: Byte)
    requires i + 3 <= |s|
    requires s[i] == '%' && s[i + 1] == HexDigits[b / 16] && s[i + 2] == HexDigits[b % 16]
    ensures ByteAt(s, i) == Some(b)
  {
    EscapeReads(b);
  }

  /** A single escape reads back as its byte. */
  lemma EscapeReads(b: Byte)
    ensures EscapedByte('%', HexDigits[b / 16], HexDigits[b % 16]) == Some(b)
  {
    var hi, lo := b / 16, b % 16;
    HexDigitValue(hi);
    HexDigitValue(lo);
  }

  lemma ContinuationOfEscapes(bytes: seq<Byte>, rest: string, k: nat)
    requires k < |bytes| && 0x80 <= bytes[k] < 0xC0
    ensures Continuation(EscapeAll(bytes) + rest, k) == Some(bytes[k] as int - 0x80)
  {
    var s, b := EscapeAll(bytes) + rest, bytes[k];
    ByteAtEscapes(bytes, rest, k);
    ContinuationOf(s, k, b);
  }

  lemma ContinuationOf(s: string, k: nat, b: Byte)
    requires ByteAt(s, 3 * k) == Some(b) && 0x80 <= b < 0xC0
    ensures Continuation(s, k) == Some(b as int - 0x80)
  {
  }

  /** The escapes of a character's UTF-8 bytes decode to that character. */
  lemma DecodeSequenceOfChar(c: char, rest: string)
    ensures DecodeSequence(EscapeAll(Utf8(c)) + rest) == Some((c, 3 * |Utf8(c)|))
  {
    var cp := c as int;
    if cp < 0x80 {
      ByteAtEscapes(Utf8(c), rest, 0);
    } else if cp < 0x800 {
      DecodeTwo(c, rest);
    } else if cp < 0x10000 {
      DecodeThree(c, rest);
    } else {
      DecodeFour(c, rest);
    }
  }

  lemma DecodeTwo(c: char, rest: string)
    requires 0x80 <= c as int < 0x800
    ensures DecodeSequence(EscapeAll(Utf8(c)) + rest) == Some((c, 6))
  {
    var bytes := Utf8(c);
    var s := EscapeAll(bytes) + rest;
    Utf8Two(c);
    var b0: int, c1: int := bytes[0], bytes[1] - 0x80;
    ByteAtEscapes(bytes, rest, 0);
    assert ByteAt(s, 0) == Some(b0);
    ContinuationOfEscapes(bytes, rest, 1);
    assert Continuation(s, 1) == Some(c1);
    ReadTwo(s, b0, c1);
  }

  lemma DecodeThree(c: char, rest: string)
    requires 0x800 <= c as int < 0x10000
    ensures DecodeSequence(EscapeAll(Utf8(c)) + rest) == Some((c, 9))
  {
    var bytes := Utf8(c);
    var s := EscapeAll(bytes) + rest;
    Utf8Three(c);
    var b0: int, c1: int, c2: int := bytes[0], bytes[1] - 0x80, bytes[2] - 0x80;
    ByteAtEscapes(bytes, rest, 0);
    assert ByteAt(s, 0) == Some(b0);
    ContinuationOfEscapes(bytes, rest, 1);
    assert Continuation(s, 1) == Some(c1);
    ContinuationOfEscapes(bytes, rest, 2);
    assert Continuation(s, 2) == Some(c2);
    ReadThree(s, b0, c1, c2);
  }

  lemma DecodeFour(c: char, rest: string)
    requires 0x10000 <= c as int
    ensures DecodeSequence(EscapeAll(Utf8(c)) + rest) == Some((c, 12))
  {
    var bytes := Utf8(c);
    var s := EscapeAll(bytes) + rest;
    Utf8Four(c);
    var b0: int, c1: int, c2: int, c3: int := bytes[0], bytes[1] - 0x80, bytes[2] - 0x80, bytes[3] - 0x80;
    ByteAtEscapes(bytes, rest, 0);
    assert ByteAt(s, 0) == Some(b0);
    ContinuationOfEscapes(bytes, rest, 1);
    assert Continuation(s, 1) == Some(c1);
    ContinuationOfEscapes(bytes, rest, 2);
    assert Continuation(s, 2) == Some(c2);
    ContinuationOfEscapes(bytes, rest, 3);
    assert Continuation(s, 3) == Some(c3);
    ReadFour(s, b0, c1, c2, c3);
  }

  /** What `DecodeSequence` computes from a two-byte lead and its
      continuation payload. */
  lemma ReadTwo(s: string, b0: int, c1: int)
    requires ByteAt(s, 0) == Some(b0) && 0xC0 <= b0 < 0xE0 && Continuation(s, 1) == Some(c1)
    ensures DecodeSequence(s) == ScalarOf((b0 - 0xC0) * 64 + c1, 0x80, 6)
  {
  }

  lemma ReadThree(s: string, b0: int, c1: int, c2: int)
    requires ByteAt(s, 0) == Some(b0) && 0xE0 <= b0 < 0xF0
    requires Continuation(s, 1) == Some(c1) && Continuation(s, 2) == Some(c2)
    ensures DecodeSequence(s) == ScalarOf((b0 - 0xE0) * 4096 + c1 * 64 + c2, 0x800, 9)
  {
  }

  lemma ReadFour(s: string, b0: int, c1: int, c2: int, c3: int)
    requires ByteAt(s, 0) == Some(b0) && 0xF0 <= b0 < 0xF8
    requires Continuation(s, 1) == Some(c1) && Continuation(s, 2) == Some(c2)
    requires Continuation(s, 3) == Some(c3)
    ensures DecodeSequence(s) == ScalarOf((b0 - 0xF0) * 262144 + c1 * 4096 + c2 * 64 + c3, 0x10000, 12)
  {
  }

  /** The two bytes of a character in U+0080..U+07FF: a lead `110xxxxx`, a
      continuation `10xxxxxx`, and their payloads make up the code point. */
  lemma Utf8Two(c: char)
    requires 0x80 <= c as int < 0x800
    ensures |Utf8(c)| == 2
    ensures 0xC0 <= Utf8(c)[0] < 0xE0 && 0x80 <= Utf8(c)[1] < 0xC0
    ensures (Utf8(c)[0] as int - 0xC0) * 64 + (Utf8(c)[1] as int - 0x80) == c as int
  {
    var cp := c as int;
    assert cp == 64 * (cp / 64) + cp % 64;
  }

  lemma Utf8Three(c: char)
    requires 0x800 <= c as int < 0x10000
    ensures |Utf8(c)| == 3
    ensures 0xE0 <= Utf8(c)[0] < 0xF0 && 0x80 <= Utf8(c)[1] < 0xC0 && 0x80 <= Utf8(c)[2] < 0xC0
    ensures (Utf8(c)[0] as int - 0xE0) * 4096 + (Utf8(c)[1] as int - 0x80) * 64 + (Utf8(c)[2] as int - 0x80) == c as int
  {
    Digits64(c as int);
  }

  lemma Utf8Four(c: char)
    requires 0x10000 <= c as int
    ensures |Utf8(c)| == 4
    ensures 0xF0 <= Utf8(c)[0] < 0xF8 && 0x80 <= Utf8(c)[1] < 0xC0
    ensures 0x80 <= Utf8(c)[2] < 0xC0 && 0x80 <= Utf8(c)[3] < 0xC0
    ensures (Utf8(c)[0] as int - 0xF0) * 262144 + (Utf8(c)[1] as int - 0x80) * 4096
            + (Utf8(c)[2] as int - 0x80) * 64 + (Utf8(c)[3] as int - 0x80) == c as int
  {
    var cp := c as int;
    Digits64(cp);
    var top := cp / 4096;
    assert top == 64 * (top / 64) + top % 64;
    assert top / 64 == cp / 262144;
  }

  /** Three base-64 digits of a natural number. */
  lemma Digits64(n: nat)
    ensures (n / 4096) * 4096 + ((n / 64) % 64) * 64 + n % 64 == n
  {
    var q := n / 64;
    assert n == 64 * q + n % 64;
    assert q == 64 * (q / 64) + q % 64;
    assert q / 64 == n / 4096;
  }

  /** `decodeURIComponent(encodeURIComponent(s)) == s`: the encoding is
      lossless, so different search terms give different URLs. */
  lemma {:induction false} DecodeEncode(s: string)
    ensures Decode(Encode(s)) == Some(s)
    decreases |s|
  {
    if s != [] {
      var c, tail := s[0], s[1..];
      var rest := Encode(tail);
      DecodeEncode(tail);
      assert Encode(s) == EncodeChar(c) + rest;
      if Unreserved(c) {
        DecodePlainHead(c, rest, tail);
      } else {
        DecodeEscapedHead(c, rest, tail);
      }
      assert s == [c] + tail;
    }
  }

  /** An unreserved character in front decodes as itself. */
  lemma DecodePlainHead(c: char, rest: string, x: string)
    requires Unreserved(c) && Decode(rest) == Some(x)
    ensures Decode([c] + rest) == Some([c] + x)
  {
    assert ([c] + rest)[1..] == rest;
  }

  /** The escapes of a character in front decode as that character. */
  lemma DecodeEscapedHead(c: char, rest: string, x: string)
    requires !Unreserved(c) && Decode(rest) == Some(x)
    ensures Decode(EscapeAll(Utf8(c)) + rest) == Some([c] + x)
  {
    var e := EscapeAll(Utf8(c)) + rest;
    var w := 3 * |Utf8(c)|;
    DecodeSequenceOfChar(c, rest);
    EscapeAllIndex(Utf8(c), 0);
    assert e[0] == '%';
    assert e[w..] == rest;
  }

  /** Encoding works character by character, so it distributes over
      concatenation. */
  lemma {:induction false} EncodeAppend(a: string, b: string)
    ensures Encode(a + b) == Encode(a) + Encode(b)
    decreases |a|
  {
    if a == [] {
      assert a + b == b;
    } else {
      assert (a + b)[1..] == a[1..] + b;
      EncodeAppend(a[1..], b);
    }
  }
}

=== FILE: wrappers.dfy ===
/** The optional value used wherever the JavaScript code sees `undefined`. */
module Wrappers {

  /** `None` stands for an absent value (JavaScript `undefined`). */
  datatype Option<+T> = None | Some(value: T) {

    predicate IsFailure() {
      None?
    }

    function PropagateFailure<U>(): Option<U>
      requires None?
    {
      None
    }

    function Extract(): T
      requires Some?
    {
      value
    }

    /** The value, or `default` when absent: the JavaScript idiom `x || default`
        for values that are never falsy when present. */
    function GetOr(default: T): T {
      match this
      case Some(v) => v
      case None => default
    }
  }
}
